=== FILE: README.md ===
# md-to-chm conversion core, modelled in Dafny

md-to-chm turns a folder tree of Markdown files into a compiled HTML Help (`.chm`)
file. The logic sits in `MainWindow` (`mainwindow.cpp`). The run:

1. walks the source tree (`convertMdToHtmlRecursively`), writing one HTML page per `.md`
   file and recording each page's path relative to the output folder;
2. builds the table-of-contents hierarchy from those paths (`buildTree`);
3. writes the contents file (`createHhcFile` / `addHhcObject`) and the project file
   (`createHhpFile`);
4. runs the HTML Help compiler `hhc.exe` (`compileChm` / `executeHhpAndCapture`);
5. reports success only when the compiler exits with code 1 and the `.chm` exists.

The project models each of these as pure functions over immutable values. It proves
what the outputs are, and checks each operation against a partner:

- The path codec (`#` and `%` stored as `[_SHARP_]` and `[_PERCENT_]`) is checked
  against its decoder.
- `buildTree` is checked against path-following and path-counting descriptions of a tree.
- The `.hhc` and `.hhp` writers are checked against readers of the same formats.
- The folder walk is checked against a description of where every `.md` file lies.

Modules and files:

| file | module | models |
|---|---|---|
| `results.dfy` | `Results` | `Option`, `Result` |
| `text.dfy` | `Text` | the QString operations the program calls (`replace`, `split`, `left`), plus helpers the model needs: join, for the inverse of `split`; `lastIndexOf`, for the QFileInfo queries; `indexOf`, for the readers |
| `path_codec.dfy` | `PathCodec` | `genSimbolicToOldCharHhcCompatibility`, `extractRealFromOldCharHhcCompatibility` |
| `file_names.dfy` | `FileNames` | `changeFileExt`, `QFileInfo::fileName`, `QFileInfo::completeBaseName` |
| `toc_tree.dfy` | `TocTree` | `Node`, `addChild`, `buildTree` |
| `hhc.dfy` | `Hhc` | `addHhcObject`, `createHhcFile`, and a reader of `.hhc` text |
| `hhp.dfy` | `Hhp` | `createHhpFile`, and a reader of `.hhp` text |
| `source_tree.dfy` | `SourceTree` | `convertMdToHtmlRecursively`: the walk order and the recorded paths |
| `pipeline.dfy` | `Pipeline` | `on_pushButtonConvert_clicked`, `compileChm`, `executeHhpAndCapture` |

Written files are modelled as their sequence of lines, without the line terminators.
The file system, the confirmation dialog and the compiler process are replaced by the
answers they give, held in a `Pipeline.World` value. The writes of the `.hhc` and
`.hhp` and the compiler start come back as a list of `Pipeline.Effect`s. The folder
operations and the per-page HTML writes are not recorded (see "Left out").

The model follows the code where its behaviour may surprise:

- The root node is itself written to the `.hhc` as an entry, with an empty `Name` and
  no `Local`. Everything else is nested in a `<UL>` below it.
- A node created for a path segment stores the whole input path, even when the node
  is a folder that gets children later.
- Success needs the compiler's exit code to be exactly 1 AND the `.chm` to exist
  afterwards. Any other exit code fails the run, even if a `.chm` appeared.
- The tree is built before the check for an empty page list. The building has no
  effect, so the model only evaluates it when the list is non-empty.
- A `.md` file that cannot be read does not stop the run. Its page path is recorded
  all the same.
- The codec only round-trips paths without `[`. A path that already spells a
  sentinel decodes to a different path (`PathCodec.SentinelCollision`).
- `createHhpFile` takes the first list element for `Default topic`. So it needs a
  non-empty list. Its only caller guarantees that.

## Model

| member | source | states |
|---|---|---|
| PathCodec.Encode | mainwindow.cpp:28-32 | an encoded path contains no `#` and no `%` |
| PathCodec.EncodeConcat | mainwindow.cpp:28-32 | encoding works piecewise: the encoding of a concatenation is the concatenation of the encodings |
| PathCodec.EncodeAvoids | mainwindow.cpp:28-32 | a character in neither the path nor the sentinels (for example `/`) does not appear in the encoding |
| PathCodec.DecodeEncode | mainwindow.cpp:28-38 | decoding the encoding of a path without `[` gives the path back |
| PathCodec.SentinelCollision | mainwindow.cpp:28-38 | without that condition the round trip fails: the text `[_SHARP_]` encodes to itself and decodes to `#` |
| FileNames.FileNameShape | mainwindow.cpp:200-203 | the file name is the suffix of the path after its last `/`, or the whole path when there is none |
| FileNames.CompleteBaseNameShape | mainwindow.cpp:200-203 | the complete base name is the file name cut at its last `.`, or the whole file name when it has no `.` |
| FileNames.CompleteBaseNameAvoids | mainwindow.cpp:200-203 | the base name takes its characters from the path |
| FileNames.ChangeExtension | mainwindow.cpp:200-203 | `base.ext` with a new extension is `base` followed by the new extension, for a folder-free base and a dot-free ext |
| FileNames.ChangeFileExtTwice | mainwindow.cpp:200-203 | when the first new extension is `.` followed by a name without `.` or `/`, changing the extension twice equals changing it once to the second extension |
| FileNames.ChangeFileExtIgnoresDirectory | mainwindow.cpp:200-203 | the folder part of the path has no influence on the result |
| FileNames.ChangeExtensionInFolder | mainwindow.cpp:200-203 | whatever folders a path names, changing the extension of `path.ext` gives the path's file name followed by the new extension |
| Text.Split | mainwindow.cpp:103 | a split has at least one piece and no piece contains the separator |
| Text.JoinSplit | mainwindow.cpp:103 | joining the pieces of a split with the separator gives the text back |
| Text.SplitJoin | mainwindow.cpp:103 | splitting a join of separator-free pieces gives exactly those pieces back |
| Text.Left | mainwindow.cpp:96 | `left(n)` is the prefix of length `min(n, length)` |
| TocTree.FindChild | mainwindow.cpp:107-113 | the search returns the first child with the title, or -1 exactly when no child has it |
| TocTree.Insert | mainwindow.cpp:105-117 | inserting one path keeps the node's title and path. A missing first segment is appended after the existing children as `Node(segment, whole path)`. A present one keeps the number of children and changes no other child. |
| TocTree.BuildTree | mainwindow.cpp:100-121 | the root has empty title and path, and an empty list gives a childless root |
| TocTree.InsertExtends | mainwindow.cpp:105-117 | an insertion never removes, reorders, retitles or re-paths an existing node |
| TocTree.InsertCreatesPath | mainwindow.cpp:105-117 | after an insertion the path's segments are a title path from the node |
| TocTree.InsertPresent | mainwindow.cpp:105-113 | inserting a path that already is a title path changes nothing |
| TocTree.InsertUnique | mainwindow.cpp:105-117 | an insertion keeps sibling titles distinct |
| TocTree.BuildTreeWellFormed | mainwindow.cpp:100-121 | in the built tree no node has two children with the same title, and every node below the root carries one of the input paths |
| TocTree.BuildTreeHasEveryPath | mainwindow.cpp:102-118 | every input's segment list is a title path from the root |
| TocTree.BuildTreeSharesPrefixes | mainwindow.cpp:102-118 | every leading part of an input's segment list is spelled by exactly one title path, so inputs sharing leading segments share those nodes |
| TocTree.BuildTreeRepeat | mainwindow.cpp:102-118 | repeating an input path leaves the tree unchanged |
| TocTree.BuildTreeFirstSeen | mainwindow.cpp:114-116 | the tree of any prefix of the input survives, index for index, in the tree of the whole input, so sibling order is first-seen order |
| Hhc.HhcObject | mainwindow.cpp:123-141 | a node's entry opens with the object line, its `<UL>`/`</UL>` are balanced, and it has exactly one `Local` line per leaf |
| Hhc.HhcObjects | mainwindow.cpp:136-138 | the entries of a sibling list are balanced and have one `Local` line per leaf |
| Hhc.CreateHhcFile | mainwindow.cpp:143-160 | the file is the fixed 7-line header, the root's entry and the fixed 3-line footer, balanced as a whole, with one `Local` line per leaf |
| Hhc.ParamRoundTrip | mainwindow.cpp:128-129 | the value of a written `<param>` line reads back unchanged |
| Hhc.ReadLeaf | mainwindow.cpp:126-130 | the four lines of a childless node read back as an entry with its name and its `Local` target |
| Hhc.ReadGroup | mainwindow.cpp:131-140 | a grouping node's lines read back as an entry without `Local`, followed by its children's entries |
| Hhc.ReadObjectRoundTrip | mainwindow.cpp:123-141 | reading a node's lines gives its entry back. The `Name` is the decoded title without its last extension. Leaves link to their path; grouping nodes link nowhere and list their children in order. |
| Hhc.ReadHhcRoundTrip | mainwindow.cpp:143-160 | reading a written `.hhc` file gives back exactly the entry of the root |
| Hhp.SettingLines | mainwindow.cpp:177-185 | one `key=value` line per setting, in order |
| Hhp.CreateHhpFile | mainwindow.cpp:167-189 | the file is `[OPTIONS]`, eight settings, `[FILES]`, then exactly the given pages in the given order |
| Hhp.SettingRoundTrip | mainwindow.cpp:178-185 | a setting line reads back as its key and value and is never taken for `[FILES]` |
| Hhp.ReadSettingsRoundTrip | mainwindow.cpp:177-186 | the settings section reads back as the settings, followed by what comes after `[FILES]` |
| Hhp.SettingsLookup | mainwindow.cpp:178-185 | the compiled file, contents file, default topic and title are each found under their key |
| Hhp.ReadHhpRoundTrip | mainwindow.cpp:167-189 | reading a written project file gives back its settings and exactly the page list |
| Hhp.ProjectFileContents | mainwindow.cpp:169-188 | the project file names the first page as its default topic. Its compiled file, contents file and title are the project file name with `.chm`, `.hhc` and no extension. Its `[FILES]` section is the whole list. |
| SourceTree.PageName | mainwindow.cpp:67-68 | a page name contains no `/` |
| SourceTree.PageNameFromSource | mainwindow.cpp:67-68 | the page name is the encoding of the `.md` name with its extension changed to `.html` |
| SourceTree.PageNameStrips | mainwindow.cpp:67-68 | stripping a page name's extension leaves the encoded base name of the `.md` file |
| SourceTree.FoundHere | mainwindow.cpp:64-75 | a folder's own files are recorded in listing order, each under the folder's chain |
| SourceTree.Collect | mainwindow.cpp:58-83 | the walk records exactly one page per `.md` file of the tree |
| SourceTree.CollectSubdirs | mainwindow.cpp:77-82 | the walk of the subfolders records one page per `.md` file below them |
| SourceTree.SubdirsBlock | mainwindow.cpp:77-82 | the subfolders are walked one after the other in listing order: the entries of each form one block, right after the blocks of the subfolders listed before it |
| SourceTree.SubdirBlock | mainwindow.cpp:64-82 | in a folder's walk, the block of its `i`-th subfolder follows the folder's own files and the blocks of the subfolders listed before it |
| SourceTree.DescendBlock | mainwindow.cpp:58-83 | the walk of any folder reached through the subfolders is one contiguous block of the enclosing walk, recorded under the names of the folders on the way |
| SourceTree.WalkBlock | mainwindow.cpp:58-83 | in the walk of the whole tree every folder owns one contiguous block, which opens with its own files in listing order. So all files of a folder come before any file of its subfolders. |
| SourceTree.CollectOrder | mainwindow.cpp:64-82 | a folder's own files come first, directly under its chain. Every later entry lies inside one of its subfolders. |
| SourceTree.CollectSound | mainwindow.cpp:58-83 | every recorded entry lies below the chain, and its `.md` file is found by following its folder names |
| SourceTree.CollectComplete | mainwindow.cpp:58-83 | every `.md` file of the tree is recorded, under the chain of its folders |
| SourceTree.HtmlFiles | mainwindow.cpp:73-74 | the recorded list has one path per `.md` file of the tree, page `j` made from entry `j` of the walk |
| SourceTree.HtmlFilesSplit | mainwindow.cpp:67-74 | each recorded path splits into the folder chain of its `.md` file, left unencoded, followed by its encoded page name |
| SourceTree.HtmlFilesCover | mainwindow.cpp:58-83 | every `.md` file of the tree has a recorded path that splits into its folders and its page name |
| Pipeline.CompilerError | mainwindow.cpp:85-98 | the compiler fails exactly when it has not finished when the wait ends or its exit code is not 1. The error text is the captured output, a newline and the captured error output, cut to its first 500 characters: all of it when it fits, otherwise exactly 500 characters from its start. |
| Pipeline.Convert | mainwindow.cpp:233-305 | a run succeeds exactly when the fields are filled, the source exists, no replacement is declined, the tree holds a `.md` file, the compiler finishes within the wait with exit code 1 and the `.chm` exists. It then names `<help name>.chm`. Otherwise it ends with the failure of the first check that fails: missing fields, missing source, declined replacement, no HTML generated, the compiler's error text, or "Erro ao compilar CHM" when the `.chm` is missing. Exactly when pages were collected, it writes `<help name>.hhc` from the tree of the pages, then `<help name>.hhp` for the pages, then starts `<ProgramFiles(x86)>/HTML Help Workshop/hhc.exe` on that `.hhp`. |
| Pipeline.EmptySourceStopsBeforeProject | mainwindow.cpp:270-277 | a tree without `.md` files ends the run with "no HTML generated"; no `.hhc` or `.hhp` is written and the compiler is not started |
| Pipeline.CompilerFailureReported | mainwindow.cpp:85-97 | an exit code other than 1, or a compiler still running when the wait ends, fails the run whether or not a `.chm` exists. The message is the compiler's output cut to its first 500 characters. |
| Pipeline.OutputNamesDropFolders | mainwindow.cpp:169-171 | for any help name, the project file name with `.chm`, `.hhc` or no extension is the help name's last path segment with that extension |
| Pipeline.OutputNamesAgree | mainwindow.cpp:169-171 | for a help name without `/`, the project file name with `.chm`, `.hhc` or no extension is the run's `.chm`, its `.hhc` and the help name |
| Pipeline.ProjectFileDropsFolders | mainwindow.cpp:279-287 | whatever the help name, the project file the run writes names the help name's last path segment with `.hhc` and `.chm`, and as its title |
| Pipeline.ProjectFileAgrees | mainwindow.cpp:279-290 | for a help name without `/`, the project file the run writes names the contents file written before it and the `.chm` whose existence decides success. Its title is the help name. It starts at the first collected page and lists all pages in collection order. |
| Pipeline.TocHasTitlePathForEveryDocument | mainwindow.cpp:270-284 | the contents file is written from the tree of the collected pages. That tree has a title path for every `.md` file: its folder chain, then its page name. The node there may be a heading without a link, when a sibling folder has the same name as the page. |
| Pipeline.PageDisplayName | mainwindow.cpp:124 | a document whose name has no `[` is listed in the contents under the base name of its `.md` file |

## Left out

- The window itself is not modelled. That covers the constructor and destructor, the
  progress bar, the status list and status bar, the message boxes, the folder pickers,
  and enabling and disabling the convert button (mainwindow.cpp:11-26, 221-231,
  311-326). None of it decides what is written.
- Saving and loading the last folders with QSettings (mainwindow.cpp:205-219) is
  persisted user state with no effect on the output.
- Rendering Markdown to HTML (`convertMdToHtml`, mainwindow.cpp:40-56) is done by
  QTextDocument. The model records which page is written where, not its contents.
- The answers of the file system and the compiler are inputs in `Pipeline.World`:
  whether the source and destination exist, the directory listings after the `*.md`
  filter and in listing order, whether the `.chm` exists, and the compiler's report.
  The `ProgramFiles(x86)` variable is an input too. `World.source` is the tree as
  the walk of mainwindow.cpp:270 lists it, after the destination was removed (252)
  and created again (258), not the folder as the user chose it.
- Overlapping source and destination folders are not predicted from the user's
  folder. A destination equal to or containing the source removes it at 252, so the
  walk finds nothing and the run ends with `NoHtmlGenerated`. A destination inside
  the source is created before the walk, which then descends into it and into the
  folders it makes (80) as it goes. Folder links the listing follows are not
  modelled either. In each case the model is right only for the tree given as
  `World.source`.
- Removing the destination (mainwindow.cpp:252), creating it (258), moving into it
  with `QDir::setCurrent` (261), creating each output subfolder (80) and writing each
  HTML page (68) are assumed to succeed. They are not recorded as effects, and they
  happen even when no `.md` file is found.
- SourceTree.HtmlFiles: the recorded paths are the page paths relative to the
  destination, the subfolder chain joined with the page name. That holds when both
  folders are absolute paths, which the model assumes. With a relative destination
  such as `out`, the run moves into `out` (mainwindow.cpp:261) and then records
  `out/...` paths, because `relativeFilePath` leaves a relative argument as it is. A
  relative source folder is checked against the old working folder (244) and walked
  from the new one (270). Neither case, nor path normalisation, is modelled.
- Pipeline.CompilerError: the output is a `QByteArray` read as UTF-8, and `left(500)`
  counts UTF-16 units. The model keeps characters as they are and counts them. How
  much output has been captured when the 30 000 ms wait ends, and the killing of an
  unfinished compiler when the `QProcess` goes away, are not modelled; the captured
  text is an input.
- Pipeline.ProjectFileAgrees: it holds for help names without `/`. For a help name
  naming folders, the project file names the last path segment instead
  (Pipeline.ProjectFileDropsFolders), while the run writes and checks the full name.
  How the compiler resolves the project's names against the project file's own
  folder is not modelled.
- Backslash separators and drive letters, which QFileInfo also accepts on Windows,
  are not modelled. Paths use `/` only.
- The failure paths of opening files are not modelled. These are the comma-operator
  `throw` when the `.hhc` cannot be created (mainwindow.cpp:163), and the silent skip
  when the `.hhp` cannot be opened (mainwindow.cpp:174). Both depend on I/O failure.
- The files are written as Latin-1 (mainwindow.cpp:147, 176). The model keeps the
  characters as they are and does not model the loss of non-Latin-1 ones.
- Opening the finished `.chm` with the system viewer is not modelled, and neither
  are the `qDebug` traces.
- `mainwindow.h` holds declarations only. `Node` and `Node::addChild` are not part of
  this model's sources. They are modelled from their use in `buildTree`: a title, a
  path and an ordered child list, with children appended at the end.
- Hhc.HhcObject: its contract gives the shape, balance and `Local` count of a node's
  lines. The exact `Name` and `Local` values are stated through the reader, in
  Hhc.ReadObjectRoundTrip, rather than line by line.

=== FILE: file_names.dfy ===
/** changeFileExt (mainwindow.cpp:200-203) and the two QFileInfo queries it rests on. */
module FileNames {
  import opened Text

  /** QFileInfo::fileName: the longest suffix of `path` without a `/`. */
  function FileName(path: string): (r: string)
    ensures '/' !in r
  {
    path[LastIndexOf(path, '/') + 1..]
  }

  /** The file name is the part of `path` after its last `/`: a suffix of `path`
      that is either all of it or preceded by a `/`. */
  lemma FileNameShape(path: string)
    ensures var r := FileName(path);
      && |r| <= |path| && path[|path| - |r|..] == r
      && (|r| < |path| ==> path[|path| - |r| - 1] == '/')
  {
    var slash := LastIndexOf(path, '/');
    assert FileName(path) == path[slash + 1..];
  }

  /** QFileInfo::completeBaseName: the file name up to (not including) its last `.`,
      or the whole file name when it has no `.`. */
  function CompleteBaseName(path: string): (r: string)
    ensures '/' !in r
  {
    var name := FileName(path);
    var dot := LastIndexOf(name, '.');
    if dot < 0 then name else name[..dot]
  }

  /** The complete base name is the file name cut at its last `.`: a prefix of the
      file name, followed there by a `.` after which no `.` follows; or the whole
      file name when it has no `.`. */
  lemma CompleteBaseNameShape(path: string)
    ensures var name := FileName(path);
      var r := CompleteBaseName(path);
      && |r| <= |name| && name[..|r|] == r
      && ('.' in name ==> |r| < |name| && name[|r|] == '.' && '.' !in name[|r| + 1..])
      && ('.' !in name ==> r == name)
  {
    var name := FileName(path);
    var dot := LastIndexOf(name, '.');
    if dot >= 0 {
      assert CompleteBaseName(path) == name[..dot];
      assert name[..dot] == name[..|name[..dot]|];
    } else {
      assert CompleteBaseName(path) == name;
    }
  }

  /** The complete base name takes its characters from the path. */
  lemma CompleteBaseNameAvoids(path: string, c: char)
    requires c !in path
    ensures c !in CompleteBaseName(path)
  {
    var name := FileName(path);
    var base := CompleteBaseName(path);
    FileNameShape(path);
    CompleteBaseNameShape(path);
    forall i | 0 <= i < |base| ensures base[i] != c {
      assert base[i] == name[i];
      assert name[i] == path[|path| - |name| + i];
    }
  }

  /** changeFileExt: the complete base name of `fileName` followed by `newExt`. The
      directory part is dropped. */
  function ChangeFileExt(fileName: string, newExt: string): string
  {
    CompleteBaseName(fileName) + newExt
  }

  /** Directory-free `base.ext` with a dot-free `ext` has its extension replaced. */
  lemma ChangeExtension(base: string, ext: string, newExt: string)
    requires '/' !in base && '/' !in ext && '.' !in ext
    ensures ChangeFileExt(base + "." + ext, newExt) == base + newExt
  {
    var f := base + "." + ext;
    assert '/' !in f by {
      forall i | 0 <= i < |f| ensures f[i] != '/' {
        if i < |base| { assert f[i] == base[i]; }
        else if i > |base| { assert f[i] == ext[i - |base| - 1]; }
      }
    }
    assert FileName(f) == f;
    CompleteBaseNameShape(f);
    var r := CompleteBaseName(f);
    assert f[|base|] == '.';
    assert '.' !in f[|base| + 1..] by { assert f[|base| + 1..] == ext; }
    assert r == f[..|base|] == base;
  }

  /** Changing the extension twice is the same as changing it once to the second one. */
  lemma ChangeFileExtTwice(fileName: string, ext: string, newExt: string)
    requires '/' !in ext && '.' !in ext
    ensures ChangeFileExt(ChangeFileExt(fileName, "." + ext), newExt) == ChangeFileExt(fileName, newExt)
  {
    var base := CompleteBaseName(fileName);
    assert ChangeFileExt(fileName, "." + ext) == base + "." + ext;
    ChangeExtension(base, ext, newExt);
  }

  /** The directory part of a path has no influence on the result. */
  lemma ChangeFileExtIgnoresDirectory(dir: string, name: string, newExt: string)
    requires '/' !in name
    ensures ChangeFileExt(dir + "/" + name, newExt) == ChangeFileExt(name, newExt)
  {
    var p := dir + "/" + name;
    var q := FileName(p);
    FileNameShape(p);
    assert p[|p| - |name| - 1] == '/';
    assert q == name;
    assert FileName(name) == name;
  }

  /** Whatever folders `path` names, changing the extension of `path.ext` keeps only
      the file name of `path`. */
  lemma ChangeExtensionInFolder(path: string, ext: string, newExt: string)
    requires '/' !in ext && '.' !in ext
    ensures ChangeFileExt(path + "." + ext, newExt) == FileName(path) + newExt
  {
    var name := FileName(path);
    FileNameShape(path);
    if |name| == |path| {
      assert name == path;
      ChangeExtension(path, ext, newExt);
    } else {
      var dir := path[..|path| - |name| - 1];
      assert path == dir + "/" + name;
      var f := name + "." + ext;
      assert '/' !in f by {
        forall i | 0 <= i < |f| ensures f[i] != '/' {
          if i < |name| { assert f[i] == name[i]; }
          else if i > |name| { assert f[i] == ext[i - |name| - 1]; }
        }
      }
      assert path + "." + ext == dir + "/" + f;
      ChangeFileExtIgnoresDirectory(dir, f, newExt);
      ChangeExtension(name, ext, newExt);
    }
  }
}

=== FILE: hhc.dfy ===
/** The `.hhc` sitemap table of contents (addHhcObject and createHhcFile,
    mainwindow.cpp:123-165), as the list of lines written to the file. A reader
    of the same format is the partner the rendering is checked against. */
module Hhc {
  import opened Text
  import opened Results
  import opened PathCodec
  import opened FileNames
  import opened TocTree

  const ObjectOpen: string := "<LI><OBJECT type=\"text/sitemap\">"
  const ObjectClose: string := "</OBJECT>"
  const NamePrefix: string := "<param name=\"Name\" value=\""
  const LocalPrefix: string := "<param name=\"Local\" value=\""
  const ParamEnd: string := "\">"
  const ListOpen: string := "<UL>"
  const ListClose: string := "</UL>"

  /** The fixed lines before the entries; the last one opens the outermost list. */
  const Doctype: string := "<!DOCTYPE HTML PUBLIC" + " \"-//IETF//DTD HTML//EN\">"
  const Generator: string := "<META name=\"GENERATOR\"" + " content=\"Microsoft&reg; HTML Help Workshop 4.1\">"
  const Header: seq<string> := [
    Doctype,
    "<HTML>",
    "<HEAD>",
    Generator,
    "</HEAD>",
    "<BODY>",
    ListOpen
  ]

  /** The fixed lines after the entries; the first one closes the outermost list. */
  const Footer: seq<string> := [ListClose, "</BODY>", "</HTML>"]

  /** A `<param ...>` line carrying `value` verbatim. */
  function Param(prefix: string, value: string): string
  {
    prefix + value + ParamEnd
  }

  /** The `Name` shown for a node: its title without the last `.`-suffix, decoded. */
  function DisplayName(title: string): string
  {
    Decode(ChangeFileExt(title, ""))
  }

  // ---------------------------------------------------------------------------
  // Properties of the emitted lines

  /** The list nesting depth after `lines`, starting at `depth`; None once a `</UL>`
      closes a list that is not open. */
  function Nesting(lines: seq<string>, depth: nat): Option<nat>
    decreases |lines|
  {
    if |lines| == 0 then Some(depth)
    else if lines[0] == ListOpen then Nesting(lines[1..], depth + 1)
    else if lines[0] == ListClose then (if depth == 0 then None else Nesting(lines[1..], depth - 1))
    else Nesting(lines[1..], depth)
  }

  /** Every `</UL>` closes an earlier `<UL>`, and every `<UL>` is closed. */
  predicate Balanced(lines: seq<string>)
  {
    Nesting(lines, 0) == Some(0)
  }

  /** The number of `Local` parameter lines. */
  function LocalCount(lines: seq<string>): nat
    decreases |lines|
  {
    if |lines| == 0 then 0
    else (if StartsWith(lines[0], LocalPrefix) then 1 else 0) + LocalCount(lines[1..])
  }

  /** The number of childless nodes at or below `n`. */
  function LeafCount(n: Node): nat
    decreases n
  {
    if |n.children| == 0 then 1 else LeafCounts(n.children)
  }

  function LeafCounts(cs: seq<Node>): nat
    decreases cs
  {
    if |cs| == 0 then 0 else LeafCount(cs[0]) + LeafCounts(cs[1..])
  }

  lemma {:induction false} NestingAppend(a: seq<string>, b: seq<string>, depth: nat)
    ensures Nesting(a + b, depth) == (match Nesting(a, depth) case None => None case Some(d) => Nesting(b, d))
    decreases |a|
  {
    if |a| == 0 {
      assert a + b == b;
    } else {
      assert (a + b)[0] == a[0];
      assert (a + b)[1..] == a[1..] + b;
      if a[0] == ListOpen {
        NestingAppend(a[1..], b, depth + 1);
      } else if a[0] == ListClose {
        if depth > 0 {
          NestingAppend(a[1..], b, depth - 1);
        }
      } else {
        NestingAppend(a[1..], b, depth);
      }
    }
  }

  /** Lines that never close below their starting depth behave the same one level deeper. */
  lemma {:induction false} NestingShift(lines: seq<string>, depth: nat, e: nat)
    requires Nesting(lines, depth) == Some(e)
    ensures Nesting(lines, depth + 1) == Some(e + 1)
    decreases |lines|
  {
    if |lines| > 0 {
      if lines[0] == ListOpen {
        NestingShift(lines[1..], depth + 1, e);
      } else if lines[0] == ListClose {
        NestingShift(lines[1..], depth - 1, e);
      } else {
        NestingShift(lines[1..], depth, e);
      }
    }
  }

  lemma BalancedConcat(a: seq<string>, b: seq<string>)
    requires Balanced(a) && Balanced(b)
    ensures Balanced(a + b)
  {
    NestingAppend(a, b, 0);
  }

  lemma BalancedWrap(x: seq<string>)
    requires Balanced(x)
    ensures Balanced([ListOpen] + x + [ListClose])
  {
    NestingAppend([ListOpen] + x, [ListClose], 0);
    NestingAppend([ListOpen], x, 0);
    NestingShift(x, 0, 0);
  }

  lemma {:induction false} LocalCountAppend(a: seq<string>, b: seq<string>)
    ensures LocalCount(a + b) == LocalCount(a) + LocalCount(b)
    decreases |a|
  {
    if |a| == 0 {
      assert a + b == b;
    } else {
      assert (a + b)[0] == a[0];
      assert (a + b)[1..] == a[1..] + b;
      LocalCountAppend(a[1..], b);
    }
  }

  /** A line that is neither `<UL>` nor `</UL>` nor a `Local` parameter. */
  predicate Inert(line: string)
  {
    line != ListOpen && line != ListClose && !StartsWith(line, LocalPrefix)
  }

  lemma {:induction false} InertLines(lines: seq<string>, depth: nat)
    requires forall i :: 0 <= i < |lines| ==> Inert(lines[i])
    ensures Nesting(lines, depth) == Some(depth)
    ensures LocalCount(lines) == 0
    decreases |lines|
  {
    if |lines| > 0 {
      InertLines(lines[1..], depth);
    }
  }

  lemma NameLineInert(name: string)
    ensures Inert(Param(NamePrefix, name))
  {
    var line := Param(NamePrefix, name);
    assert line[13] == 'N';
    assert LocalPrefix[13] == 'L';
    assert |line| > |ListClose|;
  }

  /** A line too short for the `Local` prefix, or differing from it early, is no `Local` line. */
  lemma NotLocal(line: string)
    requires |line| < |LocalPrefix| || (|line| > 1 && line[1] != LocalPrefix[1])
    ensures !StartsWith(line, LocalPrefix)
  {
    if |line| >= |LocalPrefix| {
      assert line[..|LocalPrefix|][1] == line[1];
    }
  }

  lemma FixedLinesInert()
    ensures Inert(ObjectOpen) && Inert(ObjectClose)
    ensures !StartsWith(ListOpen, LocalPrefix) && !StartsWith(ListClose, LocalPrefix)
    ensures LocalCount([ListOpen]) == 0 && LocalCount([ListClose]) == 0
    ensures forall i :: 0 <= i < |Header| - 1 ==> Inert(Header[i])
    ensures forall i :: 1 <= i < |Footer| ==> Inert(Footer[i])
  {
    NotLocal(ObjectOpen);
    NotLocal(ObjectClose);
    NotLocal(ListOpen);
    NotLocal(ListClose);
    assert [ListOpen][1..] == [] && [ListClose][1..] == [];
    NotLocal(Doctype);
    NotLocal(Header[1]);
    NotLocal(Header[2]);
    NotLocal(Generator);
    NotLocal(Header[4]);
    NotLocal(Header[5]);
    NotLocal(Footer[1]);
    NotLocal(Footer[2]);
  }

  /** The four lines of a childless node. */
  lemma LeafEntryFacts(name: string, path: string)
    ensures var lines := [ObjectOpen, Param(NamePrefix, name), Param(LocalPrefix, path), ObjectClose];
      Balanced(lines) && LocalCount(lines) == 1
  {
    var local := Param(LocalPrefix, path);
    var lines := [ObjectOpen, Param(NamePrefix, name), local, ObjectClose];
    NameLineInert(name);
    FixedLinesInert();
    assert |local| > |ListClose|;
    assert StartsWith(local, LocalPrefix);
    InertLines(lines[..2], 0);
    InertLines(lines[3..], 0);
    assert lines == lines[..2] + ([local] + lines[3..]);
    NestingAppend(lines[..2], [local] + lines[3..], 0);
    LocalCountAppend(lines[..2], [local] + lines[3..]);
  }

  /** The lines of a node with children, given the balanced lines of the children. */
  lemma GroupEntryFacts(name: string, nested: seq<string>)
    requires Balanced(nested)
    ensures var lines := [ObjectOpen, Param(NamePrefix, name), ObjectClose, ListOpen] + nested + [ListClose];
      Balanced(lines) && LocalCount(lines) == LocalCount(nested)
  {
    var opening := [ObjectOpen, Param(NamePrefix, name), ObjectClose];
    NameLineInert(name);
    FixedLinesInert();
    InertLines(opening, 0);
    BalancedWrap(nested);
    BalancedConcat(opening, [ListOpen] + nested + [ListClose]);
    assert opening + ([ListOpen] + nested + [ListClose]) == [ObjectOpen, Param(NamePrefix, name), ObjectClose, ListOpen] + nested + [ListClose];
    LocalCountAppend(opening, [ListOpen]);
    LocalCountAppend(opening + [ListOpen], nested);
    LocalCountAppend(opening + [ListOpen] + nested, [ListClose]);
    assert opening + [ListOpen] + nested + [ListClose] == [ObjectOpen, Param(NamePrefix, name), ObjectClose, ListOpen] + nested + [ListClose];
  }

  // ---------------------------------------------------------------------------
  // Rendering

  /** addHhcObject: a childless node is one object with its `Name` and its path as
      `Local`; a node with children is an object with only a `Name`, followed by its
      children's entries, in order, inside `<UL>`/`</UL>`. */
  function HhcObject(n: Node): (lines: seq<string>)
    ensures |lines| >= 4 && lines[0] == ObjectOpen
    ensures Balanced(lines)
    ensures LocalCount(lines) == LeafCount(n)
    decreases n
  {
    var name := DisplayName(n.title);
    if |n.children| == 0 then
      LeafEntryFacts(name, n.path);
      [ObjectOpen, Param(NamePrefix, name), Param(LocalPrefix, n.path), ObjectClose]
    else
      var nested := HhcObjects(n.children);
      GroupEntryFacts(name, nested);
      [ObjectOpen, Param(NamePrefix, name), ObjectClose, ListOpen] + nested + [ListClose]
  }

  /** The entries of a list of siblings, one after the other. */
  function HhcObjects(cs: seq<Node>): (lines: seq<string>)
    ensures Balanced(lines)
    ensures LocalCount(lines) == LeafCounts(cs)
    ensures |cs| > 0 ==> |lines| > 0 && lines[0] == ObjectOpen
    decreases cs
  {
    if |cs| == 0 then []
    else
      var first := HhcObject(cs[0]);
      var rest := HhcObjects(cs[1..]);
      BalancedConcat(first, rest);
      LocalCountAppend(first, rest);
      first + rest
  }

  /** createHhcFile: the fixed header, the entry of the root itself (with an empty
      `Name`, since the root's title is empty) and everything below it, then the
      fixed footer. The outermost list is balanced as a whole. */
  function CreateHhcFile(root: Node): (lines: seq<string>)
    ensures |lines| >= |Header| + |Footer| + 4
    ensures lines[..|Header|] == Header && lines[|lines| - |Footer|..] == Footer
    ensures Balanced(lines)
    ensures LocalCount(lines) == LeafCount(root)
  {
    var body := HhcObject(root);
    WrappedBodyFacts(body);
    Header + body + Footer
  }

  lemma WrappedBodyFacts(body: seq<string>)
    requires Balanced(body)
    ensures var lines := Header + body + Footer;
      && lines[..|Header|] == Header && lines[|lines| - |Footer|..] == Footer
      && Balanced(lines) && LocalCount(lines) == LocalCount(body)
  {
    var lines := Header + body + Footer;
    var top := Header[..|Header| - 1];
    var bottom := Footer[1..];
    FixedLinesInert();
    InertLines(top, 0);
    InertLines(bottom, 0);
    BalancedWrap(body);
    BalancedConcat(top, [ListOpen] + body + [ListClose]);
    BalancedConcat(top + ([ListOpen] + body + [ListClose]), bottom);
    assert Header == top + [ListOpen];
    assert Footer == [ListClose] + bottom;
    assert lines == top + ([ListOpen] + body + [ListClose]) + bottom;
    LocalCountAppend(top, [ListOpen]);
    LocalCountAppend(top + [ListOpen], body);
    LocalCountAppend(top + [ListOpen] + body, [ListClose]);
    LocalCountAppend(top + [ListOpen] + body + [ListClose], bottom);
    assert lines == top + [ListOpen] + body + [ListClose] + bottom;
    assert lines[..|Header|] == Header;
    assert lines[|lines| - |Footer|..] == Footer;
  }

  // ---------------------------------------------------------------------------
  // Reading the format back

  /** One table-of-contents entry as a reader of the file sees it: the `Name`, the
      `Local` target if the entry has one, and the nested entries. */
  datatype Entry = Entry(name: string, local: Option<string>, children: seq<Entry>)

  /** The entry a node should appear as: leaves link to their path, grouping nodes
      link nowhere and list their children. */
  function View(n: Node): Entry
    decreases n
  {
    Entry(DisplayName(n.title), if |n.children| == 0 then Some(n.path) else None, Views(n.children))
  }

  function Views(cs: seq<Node>): seq<Entry>
    decreases cs
  {
    if |cs| == 0 then [] else [View(cs[0])] + Views(cs[1..])
  }

  /** The value of a `<param>` line with the given prefix. */
  function ParamValue(line: string, prefix: string): Option<string>
  {
    if |line| >= |prefix| + |ParamEnd| && line[..|prefix|] == prefix && line[|line| - |ParamEnd|..] == ParamEnd
    then Some(line[|prefix|..|line| - |ParamEnd|])
    else None
  }

  /** Reads one entry from the front of `lines`, returning it with the lines after it. */
  function ReadObject(lines: seq<string>): (r: Option<(Entry, seq<string>)>)
    ensures r.Some? ==> |r.value.1| < |lines|
    decreases |lines|, 0
  {
    if |lines| < 4 || lines[0] != ObjectOpen then None
    else match ParamValue(lines[1], NamePrefix)
      case None => None
      case Some(name) =>
        if lines[3] == ObjectClose && ParamValue(lines[2], LocalPrefix).Some? then
          Some((Entry(name, ParamValue(lines[2], LocalPrefix), []), lines[4..]))
        else if lines[2] == ObjectClose && lines[3] == ListOpen then
          match ReadObjects(lines[4..])
          case None => None
          case Some((kids, rest)) =>
            if |rest| > 0 && rest[0] == ListClose then Some((Entry(name, None, kids), rest[1..])) else None
        else None
  }

  /** Reads entries for as long as the next line opens one. */
  function ReadObjects(lines: seq<string>): (r: Option<(seq<Entry>, seq<string>)>)
    ensures r.Some? ==> |r.value.1| <= |lines|
    decreases |lines|, 1
  {
    if |lines| == 0 || lines[0] != ObjectOpen then Some(([], lines))
    else match ReadObject(lines)
      case None => None
      case Some((e, rest)) =>
        match ReadObjects(rest)
        case None => None
        case Some((es, rest')) => Some(([e] + es, rest'))
  }

  /** Reads a whole `.hhc` file: header, exactly one entry, footer. */
  function ReadHhc(lines: seq<string>): Option<Entry>
  {
    if |lines| < |Header| + |Footer| || lines[..|Header|] != Header || lines[|lines| - |Footer|..] != Footer then None
    else match ReadObject(lines[|Header|..|lines| - |Footer|])
      case Some((e, rest)) => if rest == [] then Some(e) else None
      case None => None
  }

  lemma ParamRoundTrip(prefix: string, value: string)
    ensures ParamValue(Param(prefix, value), prefix) == Some(value)
  {
    var line := Param(prefix, value);
    assert line[..|prefix|] == prefix;
    assert line[|line| - |ParamEnd|..] == ParamEnd;
    assert line[|prefix|..|line| - |ParamEnd|] == value;
  }

  lemma ReadLeaf(name: string, path: string, rest: seq<string>)
    ensures ReadObject([ObjectOpen, Param(NamePrefix, name), Param(LocalPrefix, path), ObjectClose] + rest)
         == Some((Entry(name, Some(path), []), rest))
  {
    var lines := [ObjectOpen, Param(NamePrefix, name), Param(LocalPrefix, path), ObjectClose] + rest;
    ParamRoundTrip(NamePrefix, name);
    ParamRoundTrip(LocalPrefix, path);
    assert lines[1] == Param(NamePrefix, name) && lines[2] == Param(LocalPrefix, path) && lines[3] == ObjectClose;
    assert lines[4..] == rest;
  }

  lemma ReadGroup(name: string, nested: seq<string>, kids: seq<Entry>, rest: seq<string>)
    requires ReadObjects(nested + ([ListClose] + rest)) == Some((kids, [ListClose] + rest))
    ensures ReadObject([ObjectOpen, Param(NamePrefix, name), ObjectClose, ListOpen] + nested + [ListClose] + rest)
         == Some((Entry(name, None, kids), rest))
  {
    var lines := [ObjectOpen, Param(NamePrefix, name), ObjectClose, ListOpen] + nested + [ListClose] + rest;
    ParamRoundTrip(NamePrefix, name);
    assert lines[1] == Param(NamePrefix, name) && lines[2] == ObjectClose && lines[3] == ListOpen;
    assert ParamValue(ObjectClose, LocalPrefix).None?;
    assert lines[4..] == nested + ([ListClose] + rest);
    assert ([ListClose] + rest)[1..] == rest;
  }

  /** The lines of non-empty siblings start with the first sibling's lines. */
  lemma ObjectsFront(cs: seq<Node>, rest: seq<string>)
    requires |cs| > 0
    ensures HhcObjects(cs) + rest == HhcObject(cs[0]) + (HhcObjects(cs[1..]) + rest)
    ensures (HhcObject(cs[0]) + (HhcObjects(cs[1..]) + rest))[0] == ObjectOpen
  {
    var first := HhcObject(cs[0]);
    var others := HhcObjects(cs[1..]);
    assert HhcObjects(cs) == first + others;
    ConcatAssoc(first, others, rest);
    assert (first + (others + rest))[0] == first[0];
  }

  /** Regrouping stated apart from the lines it is used on: proved here, where the
      writer's contracts are not in scope, it stays cheap. */
  lemma ConcatAssoc(a: seq<string>, b: seq<string>, c: seq<string>)
    ensures (a + b) + c == a + (b + c)
  {
  }

  /** One step of ReadObjects: an entry at the front, then the entries after it. */
  lemma ReadObjectsStep(lines: seq<string>, e: Entry, mid: seq<string>, es: seq<Entry>, rest: seq<string>)
    requires |lines| > 0 && lines[0] == ObjectOpen
    requires ReadObject(lines) == Some((e, mid)) && ReadObjects(mid) == Some((es, rest))
    ensures ReadObjects(lines) == Some(([e] + es, rest))
  {
  }

  /** Reading back the lines of a node, whatever follows them, gives the node's entry. */
  lemma {:induction false} ReadObjectRoundTrip(n: Node, rest: seq<string>)
    ensures ReadObject(HhcObject(n) + rest) == Some((View(n), rest))
    decreases n, 1
  {
    var name := DisplayName(n.title);
    if |n.children| == 0 {
      ReadLeaf(name, n.path, rest);
    } else {
      ReadObjectsRoundTrip(n.children, [ListClose] + rest);
      ReadGroup(name, HhcObjects(n.children), Views(n.children), rest);
    }
  }

  /** Reading back the lines of siblings gives their entries, provided what follows
      does not itself open an entry. */
  lemma {:induction false} ReadObjectsRoundTrip(cs: seq<Node>, rest: seq<string>)
    requires |rest| == 0 || rest[0] != ObjectOpen
    ensures ReadObjects(HhcObjects(cs) + rest) == Some((Views(cs), rest))
    decreases cs, 0
  {
    if |cs| == 0 {
      assert HhcObjects(cs) + rest == rest;
    } else {
      var others := HhcObjects(cs[1..]);
      ObjectsFront(cs, rest);
      ReadObjectRoundTrip(cs[0], others + rest);
      ReadObjectsRoundTrip(cs[1..], rest);
      ReadObjectsStep(HhcObject(cs[0]) + (others + rest), View(cs[0]), others + rest, Views(cs[1..]), rest);
    }
  }

  /** Reading a written `.hhc` file gives back exactly the root's entry: every node
      appears with its display name, leaves with their path as `Local`, and children
      nested in their order. */
  lemma ReadHhcRoundTrip(root: Node)
    ensures ReadHhc(CreateHhcFile(root)) == Some(View(root))
  {
    var lines := CreateHhcFile(root);
    var body := HhcObject(root);
    assert lines[|Header|..|lines| - |Footer|] == body + [];
    ReadObjectRoundTrip(root, []);
  }
}

=== FILE: hhp.dfy ===
/** The `.hhp` project file (createHhpFile, mainwindow.cpp:167-192), as the list of
    lines written to it, and a reader of the same format as its partner. */
module Hhp {
  import opened Text
  import opened Results
  import opened FileNames

  const OptionsSection: string := "[OPTIONS]"
  const FilesSection: string := "[FILES]"

  const CompatibilityKey: string := "Compatibility"
  const CompiledFileKey: string := "Compiled file"
  const ContentsFileKey: string := "Contents file"
  const DefaultTopicKey: string := "Default topic"
  const ProgressKey: string := "Display compile progress"
  const SearchKey: string := "Full-text search"
  const LanguageKey: string := "Language"
  const TitleKey: string := "Title"

  /** A `key=value` line of the [OPTIONS] section. */
  datatype Setting = Setting(key: string, value: string)

  /** The [OPTIONS] settings, in the order they are written, for the given output
      name, contents file, first topic and title. */
  function Settings(compiledFile: string, contentsFile: string, defaultTopic: string, title: string): seq<Setting>
  {
    [ Setting(CompatibilityKey, "1.1 or later"),
      Setting(CompiledFileKey, compiledFile),
      Setting(ContentsFileKey, contentsFile),
      Setting(DefaultTopicKey, defaultTopic),
      Setting(ProgressKey, "No"),
      Setting(SearchKey, "Yes"),
      Setting(LanguageKey, "0x416 Portuguese (Brazil)"),
      Setting(TitleKey, title) ]
  }

  /** The settings createHhpFile writes: the compiled file, the contents file and the
      title are the project file's base name with `.chm`, `.hhc` and no extension, and
      the default topic is the first file. */
  function ProjectSettings(htmlFiles: seq<string>, hhpFilename: string): seq<Setting>
    requires |htmlFiles| > 0
  {
    Settings(ChangeFileExt(hhpFilename, ".chm"), ChangeFileExt(hhpFilename, ".hhc"), htmlFiles[0], ChangeFileExt(hhpFilename, ""))
  }

  function SettingLine(s: Setting): string
  {
    s.key + "=" + s.value
  }

  function SettingLines(settings: seq<Setting>): (lines: seq<string>)
    ensures |lines| == |settings|
    ensures forall i :: 0 <= i < |settings| ==> lines[i] == SettingLine(settings[i])
    decreases |settings|
  {
    if |settings| == 0 then [] else [SettingLine(settings[0])] + SettingLines(settings[1..])
  }

  /** createHhpFile. Its caller guarantees a non-empty list: the program takes the
      list's first element for the default topic. */
  function CreateHhpFile(htmlFiles: seq<string>, hhpFilename: string): (lines: seq<string>)
    requires |htmlFiles| > 0
    ensures |lines| == |htmlFiles| + 10
    ensures lines[0] == OptionsSection && lines[9] == FilesSection
    ensures lines[10..] == htmlFiles
  {
    [OptionsSection] + (SettingLines(ProjectSettings(htmlFiles, hhpFilename)) + [FilesSection] + htmlFiles)
  }

  // ---------------------------------------------------------------------------
  // Reading the format back

  /** A project file as a reader sees it: the settings and the file list. */
  datatype Project = Project(settings: seq<Setting>, files: seq<string>)

  /** A `key=value` line, split at its first `=`. */
  function ReadSetting(line: string): Option<Setting>
  {
    var eq := IndexOf(line, '=');
    if eq < 0 then None else Some(Setting(line[..eq], line[eq + 1..]))
  }

  /** Reads settings up to the [FILES] line and returns them with the lines after it. */
  function ReadSettings(lines: seq<string>): Option<(seq<Setting>, seq<string>)>
    decreases |lines|
  {
    if |lines| == 0 then None
    else if lines[0] == FilesSection then Some(([], lines[1..]))
    else match ReadSetting(lines[0])
      case None => None
      case Some(s) =>
        match ReadSettings(lines[1..])
        case None => None
        case Some((more, rest)) => Some(([s] + more, rest))
  }

  /** Reads a whole project file: [OPTIONS], its settings, [FILES], then one file per line. */
  function ReadHhp(lines: seq<string>): Option<Project>
  {
    if |lines| == 0 || lines[0] != OptionsSection then None
    else match ReadSettings(lines[1..])
      case None => None
      case Some((settings, files)) => Some(Project(settings, files))
  }

  /** The value of the first setting with the given key. */
  function Lookup(settings: seq<Setting>, key: string): Option<string>
    decreases |settings|
  {
    if |settings| == 0 then None
    else if settings[0].key == key then Some(settings[0].value)
    else Lookup(settings[1..], key)
  }

  lemma SettingRoundTrip(s: Setting)
    requires '=' !in s.key
    ensures ReadSetting(SettingLine(s)) == Some(s)
    ensures SettingLine(s) != FilesSection
  {
    var line := SettingLine(s);
    assert line[|s.key|] == '=';
    assert line[..|s.key|] == s.key;
    assert line[|s.key| + 1..] == s.value;
    assert '=' !in FilesSection;
  }

  lemma {:induction false} ReadSettingsRoundTrip(settings: seq<Setting>, files: seq<string>)
    requires forall i :: 0 <= i < |settings| ==> '=' !in settings[i].key
    ensures ReadSettings(SettingLines(settings) + [FilesSection] + files) == Some((settings, files))
    decreases |settings|
  {
    var lines := SettingLines(settings) + [FilesSection] + files;
    if |settings| == 0 {
      assert lines == [FilesSection] + files;
    } else {
      SettingRoundTrip(settings[0]);
      assert lines[0] == SettingLine(settings[0]);
      assert lines[1..] == SettingLines(settings[1..]) + [FilesSection] + files;
      ReadSettingsRoundTrip(settings[1..], files);
      assert [settings[0]] + settings[1..] == settings;
    }
  }

  /** No key of the written settings contains `=`, whatever the values. */
  lemma SettingsKeysPlain(compiledFile: string, contentsFile: string, defaultTopic: string, title: string)
    ensures var s := Settings(compiledFile, contentsFile, defaultTopic, title);
      forall i :: 0 <= i < |s| ==> '=' !in s[i].key
  {
    var keys := [CompatibilityKey, CompiledFileKey, ContentsFileKey, DefaultTopicKey, ProgressKey, SearchKey, LanguageKey, TitleKey];
    KeysPlain(keys);
    var s := Settings(compiledFile, contentsFile, defaultTopic, title);
    assert forall i :: 0 <= i < |s| ==> s[i].key == keys[i];
  }

  lemma KeysPlain(keys: seq<string>)
    requires keys == [CompatibilityKey, CompiledFileKey, ContentsFileKey, DefaultTopicKey, ProgressKey, SearchKey, LanguageKey, TitleKey]
    ensures forall i :: 0 <= i < |keys| ==> '=' !in keys[i]
  {
    assert '=' !in CompatibilityKey && '=' !in CompiledFileKey && '=' !in ContentsFileKey && '=' !in DefaultTopicKey;
    assert '=' !in ProgressKey && '=' !in SearchKey && '=' !in LanguageKey && '=' !in TitleKey;
  }

  /** The keys in front of the title's are all longer than it. */
  lemma TitleLookup(s: seq<Setting>, title: string)
    requires |s| == 8 && s[7] == Setting(TitleKey, title)
    requires forall i :: 0 <= i < 7 ==> |s[i].key| > |TitleKey|
    ensures Lookup(s, TitleKey) == Some(title)
  {
    LookupFirst(s, 7, TitleKey);
  }

  /** A key is found at its first occurrence. */
  lemma {:induction false} LookupFirst(s: seq<Setting>, k: nat, key: string)
    requires k < |s| && s[k].key == key
    requires forall i :: 0 <= i < k ==> s[i].key != key
    ensures Lookup(s, key) == Some(s[k].value)
    decreases k
  {
    if k > 0 {
      assert forall i :: 0 <= i < k - 1 ==> s[1..][i] == s[i + 1];
      LookupFirst(s[1..], k - 1, key);
    }
  }

  /** Where each derived value is found among the settings. */
  lemma SettingsLookup(compiledFile: string, contentsFile: string, defaultTopic: string, title: string)
    ensures var s := Settings(compiledFile, contentsFile, defaultTopic, title);
      && Lookup(s, CompiledFileKey) == Some(compiledFile)
      && Lookup(s, ContentsFileKey) == Some(contentsFile)
      && Lookup(s, DefaultTopicKey) == Some(defaultTopic)
      && Lookup(s, TitleKey) == Some(title)
  {
    var s := Settings(compiledFile, contentsFile, defaultTopic, title);
    assert CompatibilityKey[4] != CompiledFileKey[4] && CompatibilityKey[2] != ContentsFileKey[2];
    assert CompiledFileKey[2] != ContentsFileKey[2];
    assert CompatibilityKey[0] != DefaultTopicKey[0] && CompiledFileKey[0] != DefaultTopicKey[0];
    assert ContentsFileKey[0] != DefaultTopicKey[0];
    var s1 := s[1..];
    var s2 := s1[1..];
    var s3 := s2[1..];
    assert s1[0].key == CompiledFileKey && s2[0].key == ContentsFileKey && s3[0].key == DefaultTopicKey;
    assert Lookup(s2, ContentsFileKey) == Some(contentsFile);
    assert Lookup(s3, DefaultTopicKey) == Some(defaultTopic);
    assert Lookup(s, ContentsFileKey) == Lookup(s1, ContentsFileKey);
    assert Lookup(s, DefaultTopicKey) == Lookup(s1, DefaultTopicKey) == Lookup(s2, DefaultTopicKey);
    assert |TitleKey| < |CompatibilityKey| && |TitleKey| < |CompiledFileKey| && |TitleKey| < |ContentsFileKey|;
    assert |TitleKey| < |DefaultTopicKey| && |TitleKey| < |ProgressKey| && |TitleKey| < |SearchKey|;
    assert |TitleKey| < |LanguageKey|;
    TitleLookup(s, title);
  }

  /** Reading the lines of any settings with `=`-free keys and any files. */
  lemma ReadProject(settings: seq<Setting>, files: seq<string>)
    requires forall i :: 0 <= i < |settings| ==> '=' !in settings[i].key
    ensures ReadHhp([OptionsSection] + (SettingLines(settings) + [FilesSection] + files)) == Some(Project(settings, files))
  {
    var rest := SettingLines(settings) + [FilesSection] + files;
    var lines := [OptionsSection] + rest;
    assert lines[1..] == rest;
    ReadSettingsRoundTrip(settings, files);
  }

  /** Reading a written project file gives back its settings and exactly the given
      files, in the given order. */
  lemma ReadHhpRoundTrip(htmlFiles: seq<string>, hhpFilename: string)
    requires |htmlFiles| > 0
    ensures ReadHhp(CreateHhpFile(htmlFiles, hhpFilename)) == Some(Project(ProjectSettings(htmlFiles, hhpFilename), htmlFiles))
  {
    SettingsKeysPlain(ChangeFileExt(hhpFilename, ".chm"), ChangeFileExt(hhpFilename, ".hhc"), htmlFiles[0], ChangeFileExt(hhpFilename, ""));
    ReadProject(ProjectSettings(htmlFiles, hhpFilename), htmlFiles);
  }

  /** What a reader of the project file finds: the default topic is the first file,
      the compiled file, contents file and title are the project name with the
      extension `.chm`, `.hhc` and none, and the [FILES] section is the whole list. */
  lemma ProjectFileContents(htmlFiles: seq<string>, hhpFilename: string)
    requires |htmlFiles| > 0
    ensures var p := ReadHhp(CreateHhpFile(htmlFiles, hhpFilename));
      && p.Some?
      && Lookup(p.value.settings, DefaultTopicKey) == Some(htmlFiles[0])
      && Lookup(p.value.settings, CompiledFileKey) == Some(ChangeFileExt(hhpFilename, ".chm"))
      && Lookup(p.value.settings, ContentsFileKey) == Some(ChangeFileExt(hhpFilename, ".hhc"))
      && Lookup(p.value.settings, TitleKey) == Some(ChangeFileExt(hhpFilename, ""))
      && p.value.files == htmlFiles
  {
    ReadHhpRoundTrip(htmlFiles, hhpFilename);
    SettingsLookup(ChangeFileExt(hhpFilename, ".chm"), ChangeFileExt(hhpFilename, ".hhc"), htmlFiles[0], ChangeFileExt(hhpFilename, ""));
  }
}

=== FILE: path_codec.dfy ===
/** The legacy-compatibility path codec (mainwindow.cpp:28-38): `#` and `%` cannot be
    carried by the HTML Help table of contents, so generated file names store them as
    sentinel tokens, and display names turn the tokens back into the characters. */
module PathCodec {
  import opened Text

  const Sharp: string := "[_SHARP_]"
  const Percent: string := "[_PERCENT_]"

  /** genSimbolicToOldCharHhcCompatibility: `#` becomes Sharp, then `%` becomes Percent. */
  function Encode(realPath: string): (r: string)
    ensures '#' !in r && '%' !in r
  {
    var noSharp := Replace(realPath, "#", Sharp);
    ReplaceRemoves(realPath, "#", Sharp);
    ReplaceAvoids(noSharp, "%", Percent, '#');
    ReplaceRemoves(noSharp, "%", Percent);
    Replace(noSharp, "%", Percent)
  }

  /** extractRealFromOldCharHhcCompatibility: Sharp becomes `#`, then Percent becomes `%`. */
  function Decode(simbolicPath: string): string
  {
    Replace(Replace(simbolicPath, Sharp, "#"), Percent, "%")
  }

  /** What Encode makes of one character. */
  function EncodeChar(c: char): string
  {
    if c == '#' then Sharp else if c == '%' then Percent else [c]
  }

  /** Encode works character by character. */
  lemma EncodeCons(c: char, rest: string)
    ensures Encode([c] + rest) == EncodeChar(c) + Encode(rest)
  {
    ReplaceCharConcat([c], rest, "#", Sharp);
    var head := Replace([c], "#", Sharp);
    assert [c][..1] == [c];
    assert head == (if c == '#' then Sharp else [c]);
    ReplaceCharConcat(head, Replace(rest, "#", Sharp), "%", Percent);
    if c == '#' {
      ReplaceAbsent(Sharp, "%", Percent);
    }
  }

  /** Encode distributes over concatenation. */
  lemma EncodeConcat(a: string, b: string)
    ensures Encode(a + b) == Encode(a) + Encode(b)
  {
    ReplaceCharConcat(a, b, "#", Sharp);
    ReplaceCharConcat(Replace(a, "#", Sharp), Replace(b, "#", Sharp), "%", Percent);
  }

  /** A character that is in neither the input nor a sentinel is not in the encoding. */
  lemma EncodeAvoids(s: string, c: char)
    requires c !in s && c !in Sharp && c !in Percent
    ensures c !in Encode(s)
  {
    ReplaceAvoids(s, "#", Sharp, c);
    ReplaceAvoids(Replace(s, "#", Sharp), "%", Percent, c);
  }

  /** Text without `[` contains no sentinel, so Decode leaves it alone. */
  lemma DecodePlain(s: string)
    requires '[' !in s
    ensures Decode(s) == s
  {
    ReplaceAbsent(s, Sharp, "#");
    ReplaceAbsent(s, Percent, "%");
  }

  /** Decode undoes the encoding of one character other than `[`. */
  lemma DecodeCons(c: char, t: string)
    requires c != '['
    ensures Decode(EncodeChar(c) + t) == [c] + Decode(t)
  {
    var mid := Replace(t, Sharp, "#");
    if c == '#' {
      ReplaceHit(t, Sharp, "#");
      ReplaceSkip("#", mid, Percent, "%");
    } else if c == '%' {
      var s := Percent + t;
      assert s[..|Sharp|] != Sharp by { assert s[2] == 'P' && Sharp[2] == 'S'; }
      assert s[1..] == Percent[1..] + t;
      assert '[' !in Percent[1..];
      ReplaceSkip(Percent[1..], t, Sharp, "#");
      assert Replace(s, Sharp, "#") == [s[0]] + Percent[1..] + mid;
      assert [s[0]] + Percent[1..] == Percent;
      ReplaceHit(mid, Percent, "%");
    } else {
      ReplaceSkip([c], t, Sharp, "#");
      ReplaceSkip([c], mid, Percent, "%");
    }
  }

  /** Decoding an encoding gives the original path back, when the path holds no `[`
      (so no sentinel text was already present). */
  lemma {:induction false} DecodeEncode(p: string)
    requires '[' !in p
    ensures Decode(Encode(p)) == p
    decreases |p|
  {
    if |p| > 0 {
      assert p == [p[0]] + p[1..];
      EncodeCons(p[0], p[1..]);
      DecodeCons(p[0], Encode(p[1..]));
      DecodeEncode(p[1..]);
    }
  }

  /** The precondition of DecodeEncode cannot be dropped: a path that already spells
      the Sharp token comes back as a single `#`. */
  lemma SentinelCollision()
    ensures Encode(Sharp) == Sharp
    ensures Decode(Encode(Sharp)) == "#"
  {
    ReplaceAbsent(Sharp, "#", Sharp);
    ReplaceAbsent(Sharp, "%", Percent);
    ReplaceHit("", Sharp, "#");
    assert Sharp + "" == Sharp;
    assert Replace("#", Percent, "%") == "#";
  }
}

=== FILE: pipeline.dfy ===
/** The decisions of one conversion run (on_pushButtonConvert_clicked,
    mainwindow.cpp:233-305, with compileChm and executeHhpAndCapture,
    mainwindow.cpp:85-98 and 194-198). The file system, the confirmation dialog and
    the compiler process are replaced by the answers they give, collected in a
    `World`; the files the run writes and the program it starts are returned as a
    list of effects, next to the outcome. */
module Pipeline {
  import opened Text
  import opened Results
  import opened PathCodec
  import opened FileNames
  import opened TocTree
  import Hhc
  import Hhp
  import opened SourceTree

  /** The three text fields of the form: source folder, destination folder, help name. */
  datatype Form = Form(mdFilesDir: string, outputDir: string, helpName: string)

  /** What the compiler process gives back to executeHhpAndCapture: whether it
      finished within the wait (QProcess::waitForFinished gives up after its default
      of 30 000 ms), the exit code it finished with, and the output captured by the
      time the wait ended. A compiler that never starts (no `hhc.exe` at the path)
      is `finished == false` with empty output, so the reported message is the
      single line break between the two empty texts. */
  datatype CompilerRun = CompilerRun(finished: bool, exitCode: int, stdout: string, stderr: string)

  /** The answers the surroundings give during a run: whether the source folder exists,
      whether the destination already exists and the user agrees to replace it, the
      ProgramFiles(x86) variable, the compiler's report, and whether the `.chm` exists
      once the wait for the compiler has ended. `source` is the tree as the walk of
      mainwindow.cpp:270 lists it, after the destination was removed (252) and created
      again (258), and not the folder the user chose: when the two folders overlap the
      walk sees a different tree. */
  datatype World = World(
    sourceExists: bool,
    source: Dir,
    outputExists: bool,
    replaceConfirmed: bool,
    programFiles: string,
    compiler: CompilerRun,
    chmExists: bool)

  /** Why a run ends without a help file. `Thrown` carries the exception text the
      error dialog shows after its fixed prefix. */
  datatype Failure = MissingFields | SourceMissing | ReplaceDeclined | NoHtmlGenerated | Thrown(message: string)

  /** The steps that make the help project, in order: the `.hhc` written from a
      tree, the `.hhp` written for a list of pages, and the compiler started on the
      project file. The lines each writer produces are Hhc.CreateHhcFile and
      Hhp.CreateHhpFile of the recorded arguments. The folder operations and the
      per-page HTML writes that come before them are not recorded. */
  datatype Effect =
    | WriteHhc(root: Node, file: string)
    | WriteHhp(htmlFiles: seq<string>, file: string)
    | RunCompiler(program: string, argument: string)

  datatype Report = Report(effects: seq<Effect>, outcome: Result<string, Failure>)

  /** The longest exception text executeHhpAndCapture produces. */
  const MessageLimit: nat := 500

  const ChmMissingMessage: string := "Erro ao compilar CHM"

  /** compileChm: the compiler's location below the ProgramFiles(x86) folder. */
  function CompilerPath(programFiles: string): string
  {
    programFiles + "/HTML Help Workshop/hhc.exe"
  }

  /** The exit code QProcess reports: the process's own once it has finished, and 0
      for a process still running when the wait gave up. */
  function ReportedExitCode(run: CompilerRun): int
  {
    if run.finished then run.exitCode else 0
  }

  /** executeHhpAndCapture: the compiler signals success with exit code 1; any other
      reported code raises an error whose text is the captured standard output, a
      newline and the captured standard error, cut to MessageLimit characters. A
      compiler still running when the wait ends therefore fails the run. */
  function CompilerError(run: CompilerRun): (r: Option<string>)
    ensures r.None? <==> run.finished && run.exitCode == 1
    ensures r.Some? ==> |r.value| <= MessageLimit && StartsWith(run.stdout + "\n" + run.stderr, r.value)
    ensures r.Some? && |run.stdout| + 1 + |run.stderr| <= MessageLimit ==> r.value == run.stdout + "\n" + run.stderr
    ensures r.Some? && |run.stdout| + 1 + |run.stderr| > MessageLimit ==> |r.value| == MessageLimit
  {
    if ReportedExitCode(run) != 1 then Some(Left(run.stdout + "\n" + run.stderr, MessageLimit)) else None
  }

  /** `<help name>.<ext>`, as the run names its three output files. */
  function OutputFile(helpName: string, ext: string): string
  {
    helpName + "." + ext
  }


  /** on_pushButtonConvert_clicked. The checks come in the program's order: empty
      fields, a missing source folder (a silent return), a declined replacement of the
      destination, an empty page list, the compiler's exit code, and finally the
      existence of the `.chm`. A run succeeds exactly when every check passes, and
      then names `<help name>.chm`; otherwise it ends with the failure of the first
      check that fails. No `.hhc` or `.hhp` is written and the compiler
      is not started unless pages were collected. */
  function Convert(form: Form, world: World): (r: Report)
    ensures r.outcome.Ok? <==>
      && form.mdFilesDir != [] && form.outputDir != [] && form.helpName != []
      && world.sourceExists && (world.outputExists ==> world.replaceConfirmed)
      && MdCount(world.source) > 0 && world.compiler.finished && world.compiler.exitCode == 1
      && world.chmExists
    ensures r.outcome.Ok? ==> r.outcome.value == OutputFile(form.helpName, "chm")
    ensures r.effects != [] <==>
      && form.mdFilesDir != [] && form.outputDir != [] && form.helpName != []
      && world.sourceExists && (world.outputExists ==> world.replaceConfirmed)
      && MdCount(world.source) > 0
    ensures r.effects != [] ==>
      && |r.effects| == 3 && r.effects[0].WriteHhc? && r.effects[1].WriteHhp? && r.effects[2].RunCompiler?
      && r.effects[0].root == BuildTree(r.effects[1].htmlFiles) && r.effects[1].htmlFiles == HtmlFiles(world.source)
      && r.effects[2].argument == r.effects[1].file
    ensures r.effects != [] ==>
      && r.effects[0].file == OutputFile(form.helpName, "hhc") && r.effects[1].file == OutputFile(form.helpName, "hhp")
      && r.effects[2].program == CompilerPath(world.programFiles)
    ensures form.mdFilesDir == [] || form.outputDir == [] || form.helpName == [] ==> r.outcome == Err(MissingFields)
    ensures form.mdFilesDir != [] && form.outputDir != [] && form.helpName != [] && !world.sourceExists ==>
      r.outcome == Err(SourceMissing)
    ensures (&& form.mdFilesDir != [] && form.outputDir != [] && form.helpName != [] && world.sourceExists
             && world.outputExists && !world.replaceConfirmed) ==>
      r.outcome == Err(ReplaceDeclined)
    ensures (&& form.mdFilesDir != [] && form.outputDir != [] && form.helpName != [] && world.sourceExists
             && (world.outputExists ==> world.replaceConfirmed) && MdCount(world.source) == 0) ==>
      r.outcome == Err(NoHtmlGenerated)
    ensures r.effects != [] && CompilerError(world.compiler).Some? ==>
      r.outcome == Err(Thrown(CompilerError(world.compiler).value))
    ensures r.effects != [] && world.compiler.finished && world.compiler.exitCode == 1 && !world.chmExists ==>
      r.outcome == Err(Thrown(ChmMissingMessage))
  {
    if form.mdFilesDir == [] || form.outputDir == [] || form.helpName == [] then Report([], Err(MissingFields))
    else if !world.sourceExists then Report([], Err(SourceMissing))
    else if world.outputExists && !world.replaceConfirmed then Report([], Err(ReplaceDeclined))
    else
      var htmlFiles := HtmlFiles(world.source);
      if |htmlFiles| == 0 then Report([], Err(NoHtmlGenerated))
      else
        var hhp := OutputFile(form.helpName, "hhp");
        var effects := [
          WriteHhc(BuildTree(htmlFiles), OutputFile(form.helpName, "hhc")),
          WriteHhp(htmlFiles, hhp),
          RunCompiler(CompilerPath(world.programFiles), hhp)];
        match CompilerError(world.compiler)
        case Some(message) => Report(effects, Err(Thrown(message)))
        case None =>
          if !world.chmExists then Report(effects, Err(Thrown(ChmMissingMessage)))
          else Report(effects, Ok(OutputFile(form.helpName, "chm")))
  }

  // ---------------------------------------------------------------------------
  // What a run produces

  /** An empty source tree stops the run before the `.hhc` and `.hhp` are written and
      the compiler is started. */
  lemma EmptySourceStopsBeforeProject(form: Form, world: World)
    requires form.mdFilesDir != [] && form.outputDir != [] && form.helpName != []
    requires world.sourceExists && (world.outputExists ==> world.replaceConfirmed)
    requires MdCount(world.source) == 0
    ensures Convert(form, world) == Report([], Err(NoHtmlGenerated))
  {
  }

  /** A compiler that exits with a code other than 1, or is still running when the
      wait ends, fails the run whether or not a `.chm` appeared, with the start of the
      compiler's output as the message. */
  lemma CompilerFailureReported(form: Form, world: World)
    requires Convert(form, world).effects != []
    requires !world.compiler.finished || world.compiler.exitCode != 1
    ensures var o := Convert(form, world).outcome;
      && o.Err? && o.error.Thrown? && |o.error.message| <= MessageLimit
      && StartsWith(world.compiler.stdout + "\n" + world.compiler.stderr, o.error.message)
      && (|world.compiler.stdout| + 1 + |world.compiler.stderr| <= MessageLimit ==>
            o.error.message == world.compiler.stdout + "\n" + world.compiler.stderr)
      && (|world.compiler.stdout| + 1 + |world.compiler.stderr| > MessageLimit ==> |o.error.message| == MessageLimit)
  {
  }

  /** createHhpFile derives its names from the project file's name with changeFileExt,
      which keeps only the help name's last path segment: for a help name naming
      folders, the project file names a `.chm`, `.hhc` and title without them. */
  lemma OutputNamesDropFolders(helpName: string)
    ensures ChangeFileExt(OutputFile(helpName, "hhp"), ".chm") == FileName(helpName) + ".chm"
    ensures ChangeFileExt(OutputFile(helpName, "hhp"), ".hhc") == FileName(helpName) + ".hhc"
    ensures ChangeFileExt(OutputFile(helpName, "hhp"), "") == FileName(helpName)
  {
    ChangeExtensionInFolder(helpName, "hhp", ".chm");
    ChangeExtensionInFolder(helpName, "hhp", ".hhc");
    ChangeExtensionInFolder(helpName, "hhp", "");
    assert FileName(helpName) + "" == FileName(helpName);
  }

  /** For a help name without `/`, the project file's own name with its extension
      changed gives back the other outputs of the run. */
  lemma OutputNamesAgree(helpName: string)
    requires '/' !in helpName
    ensures ChangeFileExt(OutputFile(helpName, "hhp"), ".chm") == OutputFile(helpName, "chm")
    ensures ChangeFileExt(OutputFile(helpName, "hhp"), ".hhc") == OutputFile(helpName, "hhc")
    ensures ChangeFileExt(OutputFile(helpName, "hhp"), "") == helpName
  {
    ChangeExtension(helpName, "hhp", ".chm");
    ChangeExtension(helpName, "hhp", ".hhc");
    ChangeExtension(helpName, "hhp", "");
    assert helpName + "" == helpName;
  }

  /** For a help name without `/`, the project file the run writes points the
      compiler at the contents file written just before it and at the `.chm` whose
      existence decides success, is titled with the help name, starts at the first
      collected page, and lists every collected page in collection order. */
  lemma ProjectFileAgrees(form: Form, world: World)
    requires Convert(form, world).effects != []
    requires '/' !in form.helpName
    ensures var effects := Convert(form, world).effects;
      var p := Hhp.ReadHhp(Hhp.CreateHhpFile(effects[1].htmlFiles, effects[1].file));
      && p.Some?
      && Hhp.Lookup(p.value.settings, Hhp.ContentsFileKey) == Some(effects[0].file)
      && Hhp.Lookup(p.value.settings, Hhp.CompiledFileKey) == Some(OutputFile(form.helpName, "chm"))
      && Hhp.Lookup(p.value.settings, Hhp.TitleKey) == Some(form.helpName)
      && Hhp.Lookup(p.value.settings, Hhp.DefaultTopicKey) == Some(HtmlFiles(world.source)[0])
      && p.value.files == HtmlFiles(world.source)
  {
    var htmlFiles := HtmlFiles(world.source);
    var hhp := OutputFile(form.helpName, "hhp");
    Hhp.ProjectFileContents(htmlFiles, hhp);
    OutputNamesAgree(form.helpName);
  }

  /** Whatever the help name, the project file the run writes names the last path
      segment of the help name with `.hhc` and `.chm`, and as its title. With a help
      name naming folders these differ from the files the run writes and checks. */
  lemma ProjectFileDropsFolders(form: Form, world: World)
    requires Convert(form, world).effects != []
    ensures var effects := Convert(form, world).effects;
      var p := Hhp.ReadHhp(Hhp.CreateHhpFile(effects[1].htmlFiles, effects[1].file));
      && p.Some?
      && Hhp.Lookup(p.value.settings, Hhp.ContentsFileKey) == Some(FileName(form.helpName) + ".hhc")
      && Hhp.Lookup(p.value.settings, Hhp.CompiledFileKey) == Some(FileName(form.helpName) + ".chm")
      && Hhp.Lookup(p.value.settings, Hhp.TitleKey) == Some(FileName(form.helpName))
  {
    var htmlFiles := HtmlFiles(world.source);
    var hhp := OutputFile(form.helpName, "hhp");
    Hhp.ProjectFileContents(htmlFiles, hhp);
    OutputNamesDropFolders(form.helpName);
  }

  /** The table of contents the run writes is built from the collected pages, and
      its tree has a title path for every `.md` file of the source: its chain of
      folders, then its page name. The node at that path need not link the page: a
      page whose name equals a sibling folder's (`a.md` next to a folder `a.html`)
      shares one node with that folder, which then becomes a heading without a
      `Local` entry. */
  lemma TocHasTitlePathForEveryDocument(form: Form, world: World, dirs: seq<string>, md: string)
    requires Convert(form, world).effects != []
    requires PlainNames(world.source) && Located(world.source, dirs, md)
    ensures var tree := BuildTree(HtmlFiles(world.source));
      Convert(form, world).effects[0].root == tree && HasPath(tree, dirs + [PageName(md)])
  {
    var htmlFiles := HtmlFiles(world.source);
    var tree := BuildTree(htmlFiles);
    var j := HtmlFilesCover(world.source, dirs, md);
    assert htmlFiles[j] in htmlFiles;
    BuildTreeHasEveryPath(htmlFiles, htmlFiles[j]);
  }

  /** A document whose name holds no `[` is listed in the table of contents under
      its `.md` file's base name: the page name strips back to it and decodes to it. */
  lemma PageDisplayName(md: string)
    requires '[' !in md
    ensures Hhc.DisplayName(PageName(md)) == ChangeFileExt(md, "")
  {
    var base := CompleteBaseName(md);
    PageNameStrips(md);
    CompleteBaseNameAvoids(md, '[');
    DecodeEncode(base);
    assert base + "" == base;
  }
}

=== FILE: results.dfy ===
/** Optional values and results shared by the readers and the pipeline. */
module Results {

  /** An optional value: a lookup or a parse that may find nothing. */
  datatype Option<+T> = None | Some(value: T)

  /** The value of a step that either produces `value` or stops with `error`. */
  datatype Result<+T, +E> = Ok(value: T) | Err(error: E)
}

=== FILE: source_tree.dfy ===
/** The order in which convertMdToHtmlRecursively (mainwindow.cpp:58-83) records the
    generated pages. The file system is replaced by an in-memory directory value:
    the `.md` names the directory listing returns, in listing order, and the named
    subdirectories, in listing order. For an absolute destination, each recorded
    path is relative to the output directory, which is the working directory during
    the run (mainwindow.cpp:261), so it is the chain of subdirectory names followed
    by the page's file name. */
module SourceTree {
  import opened Text
  import opened PathCodec
  import opened FileNames
  import opened Results

  /** A source directory. `name` is its own name; the top directory's is unused. */
  datatype Dir = Dir(name: string, mdFiles: seq<string>, subdirs: seq<Dir>)

  /** The file name a page gets in the output tree: the encoded complete base name of
      the `.md` file, then `.html`. PageNameFromSource shows this is what the program
      computes, the encoding of the `.md` name with its extension changed
      (mainwindow.cpp:67-68). */
  function PageName(md: string): (r: string)
    ensures '/' !in r
  {
    var base := CompleteBaseName(md);
    EncodeAvoids(base, '/');
    Encode(base) + ".html"
  }

  lemma PageNameFromSource(md: string)
    ensures PageName(md) == Encode(ChangeFileExt(md, ".html"))
  {
    var base := CompleteBaseName(md);
    EncodeConcat(base, ".html");
    ReplaceAbsent(".html", "#", Sharp);
    ReplaceAbsent(".html", "%", Percent);
  }

  /** Stripping the page name's extension leaves the encoded base name of the `.md`
      file. */
  lemma PageNameStrips(md: string)
    ensures ChangeFileExt(PageName(md), "") == Encode(CompleteBaseName(md))
  {
    var e := Encode(CompleteBaseName(md));
    EncodeAvoids(CompleteBaseName(md), '/');
    assert PageName(md) == e + "." + "html";
    ChangeExtension(e, "html", "");
    assert e + "" == e;
  }

  /** Every page the walk records can be found in the list of generated pages, split
      into its directory chain and page name. */
  lemma HtmlFilesCover(source: Dir, dirs: seq<string>, md: string) returns (j: nat)
    requires PlainNames(source) && Located(source, dirs, md)
    ensures j < |HtmlFiles(source)| && Split(HtmlFiles(source)[j], '/') == dirs + [PageName(md)]
  {
    CollectComplete(source, [], dirs, md);
    var found := Collect(source, []);
    assert [] + dirs == dirs;
    j :| 0 <= j < |found| && found[j] == Found(dirs, md);
    HtmlFilesSplit(source, j);
  }

  /** The number of `.md` files in the whole tree. */
  function MdCount(d: Dir): nat
    decreases d
  {
    |d.mdFiles| + MdCounts(d.subdirs)
  }

  function MdCounts(ds: seq<Dir>): nat
    decreases ds
  {
    if |ds| == 0 then 0 else MdCount(ds[0]) + MdCounts(ds[1..])
  }

  /** A `.md` file found by the walk: the chain of subdirectory names leading to its
      directory, and its own name. */
  datatype Found = Found(dirs: seq<string>, md: string)

  /** One directory's own `.md` files, in listing order. */
  function FoundHere(mdFiles: seq<string>, chain: seq<string>): (found: seq<Found>)
    ensures |found| == |mdFiles|
    ensures forall i :: 0 <= i < |mdFiles| ==> found[i] == Found(chain, mdFiles[i])
    decreases |mdFiles|
  {
    if |mdFiles| == 0 then [] else [Found(chain, mdFiles[0])] + FoundHere(mdFiles[1..], chain)
  }

  /** The walk of convertMdToHtmlRecursively over the directory reached through
      `chain`: first the directory's own files, in listing order; then, for each
      subdirectory in listing order, everything below it, one level deeper. */
  function Collect(d: Dir, chain: seq<string>): (found: seq<Found>)
    ensures |found| == MdCount(d)
    decreases d
  {
    FoundHere(d.mdFiles, chain) + CollectSubdirs(d.subdirs, chain)
  }

  /** The recursion into the subdirectories, in listing order. */
  function CollectSubdirs(ds: seq<Dir>, chain: seq<string>): (found: seq<Found>)
    ensures |found| == MdCounts(ds)
    decreases ds
  {
    if |ds| == 0 then []
    else Collect(ds[0], chain + [ds[0].name]) + CollectSubdirs(ds[1..], chain)
  }

  /** The relative path the run records for a found file: its directory chain and
      its page name, `/`-joined. */
  function PagePath(f: Found): string
  {
    Join(f.dirs + [PageName(f.md)], '/')
  }

  function PagePaths(found: seq<Found>): (files: seq<string>)
    ensures |files| == |found|
    ensures forall j :: 0 <= j < |found| ==> files[j] == PagePath(found[j])
    decreases |found|
  {
    if |found| == 0 then [] else [PagePath(found[0])] + PagePaths(found[1..])
  }

  /** The list of generated pages for a source tree, in the order the run records them. */
  function HtmlFiles(source: Dir): (files: seq<string>)
    ensures |files| == MdCount(source)
  {
    PagePaths(Collect(source, []))
  }

  // ---------------------------------------------------------------------------
  // An independent description of what gets found

  /** Following the subdirectory names `dirs` from `d` reaches a directory that
      lists `md`. */
  ghost predicate Located(d: Dir, dirs: seq<string>, md: string)
    decreases |dirs|
  {
    if |dirs| == 0 then md in d.mdFiles
    else exists k :: 0 <= k < |d.subdirs| && d.subdirs[k].name == dirs[0] && Located(d.subdirs[k], dirs[1..], md)
  }

  /** No subdirectory name contains `/` (true of names a directory listing returns). */
  ghost predicate PlainNames(d: Dir)
    decreases d
  {
    forall k :: 0 <= k < |d.subdirs| ==> '/' !in d.subdirs[k].name && PlainNames(d.subdirs[k])
  }

  /** Everything the walk finds lies below `chain` and is located where it says. */
  lemma {:induction false} CollectSound(d: Dir, chain: seq<string>, j: nat)
    requires j < |Collect(d, chain)|
    ensures var f := Collect(d, chain)[j];
      |chain| <= |f.dirs| && f.dirs[..|chain|] == chain && Located(d, f.dirs[|chain|..], f.md)
    decreases d, 1
  {
    var f := Collect(d, chain)[j];
    if j < |d.mdFiles| {
      assert f == Found(chain, d.mdFiles[j]);
      assert f.dirs[|chain|..] == [];
      assert d.mdFiles[j] in d.mdFiles;
    } else {
      assert f == CollectSubdirs(d.subdirs, chain)[j - |d.mdFiles|];
      var k := SubdirsSound(d.subdirs, chain, j - |d.mdFiles|);
      assert f.dirs[|chain|..][1..] == f.dirs[|chain| + 1..];
    }
  }

  lemma {:induction false} SubdirsSound(ds: seq<Dir>, chain: seq<string>, j: nat) returns (k: nat)
    requires j < |CollectSubdirs(ds, chain)|
    ensures var f := CollectSubdirs(ds, chain)[j];
      && k < |ds| && |chain| < |f.dirs| && f.dirs[..|chain|] == chain
      && f.dirs[|chain|] == ds[k].name && Located(ds[k], f.dirs[|chain| + 1..], f.md)
    decreases ds, 0
  {
    var first := Collect(ds[0], chain + [ds[0].name]);
    var f := CollectSubdirs(ds, chain)[j];
    if j < |first| {
      assert f == first[j];
      CollectSound(ds[0], chain + [ds[0].name], j);
      assert f.dirs[..|chain|] == f.dirs[..|chain| + 1][..|chain|];
      assert f.dirs[|chain|] == f.dirs[..|chain| + 1][|chain|];
      k := 0;
    } else {
      assert f == CollectSubdirs(ds[1..], chain)[j - |first|];
      var k' := SubdirsSound(ds[1..], chain, j - |first|);
      k := k' + 1;
    }
  }

  /** A directory's own files are recorded first, each directly under `chain`; every
      later entry lies strictly deeper, inside one of its subdirectories. */
  lemma CollectOrder(d: Dir, chain: seq<string>, j: nat)
    requires j < MdCount(d)
    ensures var f := Collect(d, chain)[j];
      && (j < |d.mdFiles| ==> f == Found(chain, d.mdFiles[j]))
      && (j >= |d.mdFiles| ==> |f.dirs| > |chain| && f.dirs[..|chain|] == chain
                               && exists k :: 0 <= k < |d.subdirs| && f.dirs[|chain|] == d.subdirs[k].name)
  {
    if j >= |d.mdFiles| {
      assert Collect(d, chain)[j] == CollectSubdirs(d.subdirs, chain)[j - |d.mdFiles|];
      var k := SubdirsSound(d.subdirs, chain, j - |d.mdFiles|);
    }
  }

  /** The subfolders are walked one after the other in listing order: the entries of
      the `i`-th form one block, right after the blocks of the subfolders before it. */
  lemma {:induction false} SubdirsBlock(ds: seq<Dir>, chain: seq<string>, i: nat)
    requires i < |ds|
    ensures var off := MdCounts(ds[..i]);
      && off + MdCount(ds[i]) <= MdCounts(ds)
      && CollectSubdirs(ds, chain)[off..off + MdCount(ds[i])] == Collect(ds[i], chain + [ds[i].name])
    decreases i
  {
    var first := Collect(ds[0], chain + [ds[0].name]);
    var rest := CollectSubdirs(ds[1..], chain);
    assert CollectSubdirs(ds, chain) == first + rest;
    if i == 0 {
      assert MdCounts(ds[..0]) == 0;
      SliceBefore(first, rest);
    } else {
      SubdirsBlock(ds[1..], chain, i - 1);
      MdCountsFront(ds, i);
      assert ds[1..][i - 1] == ds[i];
      SliceAfter(first, rest, |first| + MdCounts(ds[1..][..i - 1]), MdCount(ds[i]));
    }
  }

  /** Counting the first `i` folders: the first one, then the next `i - 1`. */
  lemma {:induction false} MdCountsFront(ds: seq<Dir>, i: nat)
    requires 0 < i <= |ds|
    ensures MdCounts(ds[..i]) == MdCount(ds[0]) + MdCounts(ds[1..][..i - 1])
  {
    assert ds[..i][0] == ds[0] && ds[..i][1..] == ds[1..][..i - 1];
  }

  // The slicing facts below are stated over an arbitrary element type so that they
  // are proved where no walk is in scope; used inline on walks they cost the solver
  // far more.

  /** The full slice of a sequence is the sequence. */
  lemma {:induction false} SliceWhole<T>(a: seq<T>)
    ensures a[0..|a|] == a
  {
  }

  /** The leading `|first|` elements of `first + rest` are `first`. */
  lemma {:induction false} SliceBefore<T>(first: seq<T>, rest: seq<T>)
    ensures (first + rest)[0..|first|] == first
  {
  }

  /** A slice of `first + rest` that starts at or after `|first|` lies in `rest`. */
  lemma {:induction false} SliceAfter<T>(first: seq<T>, rest: seq<T>, off: nat, m: nat)
    requires |first| <= off && off + m <= |first| + |rest|
    ensures (first + rest)[off..off + m] == rest[off - |first|..off - |first| + m]
  {
  }

  /** The same block seen from the folder that holds the subfolders: it comes after
      the folder's own files and the blocks of the subfolders listed before it. */
  lemma {:induction false} SubdirBlock(d: Dir, chain: seq<string>, i: nat) returns (off: nat)
    requires i < |d.subdirs|
    ensures off == |d.mdFiles| + MdCounts(d.subdirs[..i])
    ensures off + MdCount(d.subdirs[i]) <= MdCount(d)
    ensures Collect(d, chain)[off..off + MdCount(d.subdirs[i])] == Collect(d.subdirs[i], chain + [d.subdirs[i].name])
  {
    var sub := d.subdirs[i];
    SubdirsBlock(d.subdirs, chain, i);
    var here := FoundHere(d.mdFiles, chain);
    var below := CollectSubdirs(d.subdirs, chain);
    off := |here| + MdCounts(d.subdirs[..i]);
    assert Collect(d, chain) == here + below;
    assert MdCount(d) == |here| + |below|;
    SliceAfter(here, below, off, MdCount(sub));
  }

  /** A slice of a slice is a slice of the whole, at the summed offset. */
  lemma {:induction false} SliceOfSlice<T>(a: seq<T>, o1: nat, m1: nat, o2: nat, m2: nat)
    requires o1 + m1 <= |a| && o2 + m2 <= m1
    ensures a[o1..o1 + m1][o2..o2 + m2] == a[o1 + o2..o1 + o2 + m2]
  {
    var l := a[o1..o1 + m1][o2..o2 + m2];
    var r := a[o1 + o2..o1 + o2 + m2];
    assert |l| == |r|;
    forall i | 0 <= i < m2 ensures l[i] == r[i] {
      assert l[i] == a[o1 + o2 + i];
    }
  }

  /** The subfolder reached from `d` by following the listing positions `ks`, with
      the names of the folders passed on the way; None when a position is out of
      range. */
  function Descend(d: Dir, ks: seq<nat>): Option<(Dir, seq<string>)>
    decreases |ks|
  {
    if |ks| == 0 then Some((d, []))
    else if ks[0] < |d.subdirs| then
      match Descend(d.subdirs[ks[0]], ks[1..])
      case None => None
      case Some((e, names)) => Some((e, [d.subdirs[ks[0]].name] + names))
    else None
  }

  /** The walk of any folder of the tree is one contiguous block of the walk of the
      whole tree, recorded under the names leading to that folder. */
  lemma {:induction false} DescendBlock(d: Dir, chain: seq<string>, ks: seq<nat>) returns (off: nat)
    requires Descend(d, ks).Some?
    ensures var e := Descend(d, ks).value.0;
      var names := Descend(d, ks).value.1;
      && off + MdCount(e) <= MdCount(d)
      && Collect(d, chain)[off..off + MdCount(e)] == Collect(e, chain + names)
    decreases |ks|
  {
    if |ks| == 0 {
      off := 0;
      assert chain + [] == chain;
      SliceWhole(Collect(d, chain));
    } else {
      var sub := d.subdirs[ks[0]];
      var below := Descend(sub, ks[1..]);
      assert below.Some?;
      var e := below.value.0;
      var names := below.value.1;
      assert Descend(d, ks).value == (e, [sub.name] + names);
      var off2 := DescendBlock(sub, chain + [sub.name], ks[1..]);
      off := NestedBlock(d, chain, ks[0], e, names, off2);
    }
  }

  /** A block inside the walk of a subfolder is a block of the folder's walk. */
  lemma {:induction false} NestedBlock(d: Dir, chain: seq<string>, k: nat, e: Dir, names: seq<string>, inner: nat)
    returns (off: nat)
    requires k < |d.subdirs|
    requires var sub := d.subdirs[k];
      && inner + MdCount(e) <= MdCount(sub)
      && Collect(sub, chain + [sub.name])[inner..inner + MdCount(e)] == Collect(e, chain + [sub.name] + names)
    ensures off + MdCount(e) <= MdCount(d)
    ensures Collect(d, chain)[off..off + MdCount(e)] == Collect(e, chain + ([d.subdirs[k].name] + names))
  {
    var sub := d.subdirs[k];
    var outer := SubdirBlock(d, chain, k);
    off := outer + inner;
    SliceOfSlice(Collect(d, chain), outer, MdCount(sub), inner, MdCount(e));
    assert chain + [sub.name] + names == chain + ([sub.name] + names);
  }

  lemma {:induction false} SubdirsInclude(ds: seq<Dir>, chain: seq<string>, k: nat, x: Found)
    requires k < |ds| && x in Collect(ds[k], chain + [ds[k].name])
    ensures x in CollectSubdirs(ds, chain)
    decreases |ds|
  {
    if k > 0 {
      assert ds[1..][k - 1] == ds[k];
      SubdirsInclude(ds[1..], chain, k - 1, x);
    }
  }

  /** Every `.md` file of the tree is found, under the chain of its directories. */
  lemma {:induction false} CollectComplete(d: Dir, chain: seq<string>, dirs: seq<string>, md: string)
    requires Located(d, dirs, md)
    ensures Found(chain + dirs, md) in Collect(d, chain)
    decreases |dirs|
  {
    if |dirs| == 0 {
      var i :| 0 <= i < |d.mdFiles| && d.mdFiles[i] == md;
      assert chain + dirs == chain;
      assert Collect(d, chain)[i] == Found(chain + dirs, md);
    } else {
      var k :| 0 <= k < |d.subdirs| && d.subdirs[k].name == dirs[0] && Located(d.subdirs[k], dirs[1..], md);
      CollectComplete(d.subdirs[k], chain + [dirs[0]], dirs[1..], md);
      assert chain + [dirs[0]] + dirs[1..] == chain + dirs;
      SubdirsInclude(d.subdirs, chain, k, Found(chain + dirs, md));
    }
  }

  /** The directory names along a located file's chain contain no `/`. */
  lemma {:induction false} LocatedPlain(d: Dir, dirs: seq<string>, md: string)
    requires PlainNames(d) && Located(d, dirs, md)
    ensures forall i :: 0 <= i < |dirs| ==> '/' !in dirs[i]
    decreases |dirs|
  {
    if |dirs| > 0 {
      var k :| 0 <= k < |d.subdirs| && d.subdirs[k].name == dirs[0] && Located(d.subdirs[k], dirs[1..], md);
      LocatedPlain(d.subdirs[k], dirs[1..], md);
      assert forall i :: 1 <= i < |dirs| ==> dirs[i] == dirs[1..][i - 1];
    }
  }

  /** In the whole walk of the tree, every folder owns one contiguous block: the
      entries of its own walk, under the names leading to it. The block opens with
      the folder's own files, in listing order, so all files of a folder come before
      any file of its subfolders. Page `j` of HtmlFiles is made from entry `j`. */
  lemma {:induction false} WalkBlock(source: Dir, ks: seq<nat>) returns (off: nat)
    requires Descend(source, ks).Some?
    ensures var e := Descend(source, ks).value.0;
      var names := Descend(source, ks).value.1;
      && off + MdCount(e) <= MdCount(source)
      && Collect(source, [])[off..off + MdCount(e)] == Collect(e, names)
      && Collect(source, [])[off..off + |e.mdFiles|] == FoundHere(e.mdFiles, names)
  {
    var e := Descend(source, ks).value.0;
    var names := Descend(source, ks).value.1;
    off := DescendBlock(source, [], ks);
    assert [] + names == names;
    var block := Collect(e, names);
    assert block == FoundHere(e.mdFiles, names) + CollectSubdirs(e.subdirs, names);
    SliceOfSlice(Collect(source, []), off, MdCount(e), 0, |e.mdFiles|);
    assert block[0..|e.mdFiles|] == FoundHere(e.mdFiles, names);
  }

  /** Each recorded relative path splits back into exactly the directory chain of
      the file it was made from, followed by that file's page name. */
  lemma HtmlFilesSplit(source: Dir, j: nat)
    requires PlainNames(source) && j < MdCount(source)
    ensures var f := Collect(source, [])[j];
      Located(source, f.dirs, f.md) && Split(HtmlFiles(source)[j], '/') == f.dirs + [PageName(f.md)]
  {
    var f := Collect(source, [])[j];
    CollectSound(source, [], j);
    assert f.dirs[0..] == f.dirs;
    LocatedPlain(source, f.dirs, f.md);
    var segs := f.dirs + [PageName(f.md)];
    assert forall i :: 0 <= i < |segs| ==> '/' !in segs[i] by {
      forall i | 0 <= i < |segs| ensures '/' !in segs[i] {
        if i < |f.dirs| { assert segs[i] == f.dirs[i]; }
      }
    }
    SplitJoin(segs, '/');
  }
}

=== FILE: text.dfy ===
/** The few QString operations the converter relies on, over `string` (= `seq<char>`). */
module Text {

  /** `s` with every occurrence of `pat` replaced by `rep`, the way QString::replace
      scans: left to right, non-overlapping, never rescanning text it has inserted. */
  function Replace(s: string, pat: string, rep: string): string
    requires |pat| > 0
    decreases |s|
  {
    if |s| < |pat| then s
    else if s[..|pat|] == pat then rep + Replace(s[|pat|..], pat, rep)
    else [s[0]] + Replace(s[1..], pat, rep)
  }

  /** A prefix that cannot start an occurrence of `pat` passes through unchanged. */
  lemma {:induction false} ReplaceSkip(x: string, t: string, pat: string, rep: string)
    requires |pat| > 0
    requires pat[0] !in x
    ensures Replace(x + t, pat, rep) == x + Replace(t, pat, rep)
    decreases |x|
  {
    if |x| > 0 {
      var s := x + t;
      if |s| < |pat| {
        assert |t| < |pat|;
      } else {
        assert s[0] == x[0];
        assert s[..|pat|][0] == x[0];
        assert s[1..] == x[1..] + t;
        ReplaceSkip(x[1..], t, pat, rep);
      }
    } else {
      assert x + t == t;
    }
  }

  /** An occurrence of `pat` at the front is replaced and scanning resumes after it. */
  lemma ReplaceHit(t: string, pat: string, rep: string)
    requires |pat| > 0
    ensures Replace(pat + t, pat, rep) == rep + Replace(t, pat, rep)
  {
    assert (pat + t)[..|pat|] == pat;
    assert (pat + t)[|pat|..] == t;
  }

  /** Replacing a single character distributes over concatenation. */
  lemma {:induction false} ReplaceCharConcat(a: string, b: string, pat: string, rep: string)
    requires |pat| == 1
    ensures Replace(a + b, pat, rep) == Replace(a, pat, rep) + Replace(b, pat, rep)
    decreases |a|
  {
    if |a| == 0 {
      assert a + b == b;
    } else {
      assert (a + b)[1..] == a[1..] + b;
      assert (a + b)[..1] == a[..1];
      ReplaceCharConcat(a[1..], b, pat, rep);
    }
  }

  /** Text without the first character of `pat` is left as it is. */
  lemma ReplaceAbsent(s: string, pat: string, rep: string)
    requires |pat| > 0
    requires pat[0] !in s
    ensures Replace(s, pat, rep) == s
  {
    ReplaceSkip(s, "", pat, rep);
    assert s + "" == s;
  }

  /** Replacing a single character by text without it removes every occurrence. */
  lemma {:induction false} ReplaceRemoves(s: string, pat: string, rep: string)
    requires |pat| == 1
    requires pat[0] !in rep
    ensures pat[0] !in Replace(s, pat, rep)
    decreases |s|
  {
    if |s| >= 1 {
      if s[..1] == pat {
        ReplaceRemoves(s[1..], pat, rep);
      } else {
        assert s[0] != pat[0] by { assert s[..1][0] == s[0]; }
        ReplaceRemoves(s[1..], pat, rep);
      }
    }
  }

  /** A character found in neither the input nor the replacement is not in the result. */
  lemma {:induction false} ReplaceAvoids(s: string, pat: string, rep: string, c: char)
    requires |pat| > 0
    requires c !in s && c !in rep
    ensures c !in Replace(s, pat, rep)
    decreases |s|
  {
    if |s| >= |pat| {
      if s[..|pat|] == pat {
        ReplaceAvoids(s[|pat|..], pat, rep, c);
      } else {
        ReplaceAvoids(s[1..], pat, rep, c);
      }
    }
  }

  /** Qt's `split`: the pieces between separators, empty pieces kept, so `""` gives `[""]`. */
  function Split(s: string, sep: char): (parts: seq<string>)
    ensures |parts| >= 1
    ensures forall i :: 0 <= i < |parts| ==> sep !in parts[i]
    decreases |s|
  {
    if |s| == 0 then [""]
    else
      var rest := Split(s[1..], sep);
      if s[0] == sep then [""] + rest
      else [[s[0]] + rest[0]] + rest[1..]
  }

  /** The pieces put back together with one separator between neighbours. */
  function Join(parts: seq<string>, sep: char): string
    requires |parts| >= 1
    decreases |parts|
  {
    if |parts| == 1 then parts[0] else parts[0] + [sep] + Join(parts[1..], sep)
  }

  /** Joining the pieces of a split gives back the original text. */
  lemma {:induction false} JoinSplit(s: string, sep: char)
    ensures Join(Split(s, sep), sep) == s
    decreases |s|
  {
    if |s| > 0 {
      var rest := Split(s[1..], sep);
      JoinSplit(s[1..], sep);
      if s[0] == sep {
        assert Split(s, sep) == [""] + rest;
        assert ([""] + rest)[1..] == rest;
        assert s == [sep] + s[1..];
      } else {
        var parts := [[s[0]] + rest[0]] + rest[1..];
        assert Split(s, sep) == parts;
        if |rest| == 1 {
          assert s == [s[0]] + s[1..];
        } else {
          assert parts[1..] == rest[1..];
          assert Join(rest, sep) == rest[0] + [sep] + Join(rest[1..], sep);
          assert s == [s[0]] + s[1..];
        }
      }
    }
  }

  /** Splitting text that starts with a separator-free piece `x`. */
  lemma {:induction false} SplitAfterPiece(x: string, t: string, sep: char)
    requires sep !in x
    ensures Split(x + t, sep) == [x + Split(t, sep)[0]] + Split(t, sep)[1..]
    decreases |x|
  {
    if |x| > 0 {
      assert (x + t)[1..] == x[1..] + t;
      assert (x + t)[0] == x[0];
      SplitAfterPiece(x[1..], t, sep);
      assert [x[0]] + (x[1..] + Split(t, sep)[0]) == x + Split(t, sep)[0];
    } else {
      var p := Split(t, sep);
      assert x + t == t;
      assert x + p[0] == p[0];
      assert [p[0]] + p[1..] == p;
    }
  }

  /** Splitting a join of separator-free pieces recovers exactly those pieces. */
  lemma {:induction false} SplitJoin(parts: seq<string>, sep: char)
    requires |parts| >= 1
    requires forall i :: 0 <= i < |parts| ==> sep !in parts[i]
    ensures Split(Join(parts, sep), sep) == parts
    decreases |parts|
  {
    if |parts| == 1 {
      SplitAfterPiece(parts[0], "", sep);
      assert parts[0] + "" == parts[0];
    } else {
      var tail := Join(parts[1..], sep);
      SplitJoin(parts[1..], sep);
      assert Join(parts, sep) == parts[0] + ([sep] + tail);
      SplitAfterPiece(parts[0], [sep] + tail, sep);
      assert ([sep] + tail)[1..] == tail;
      assert Split([sep] + tail, sep) == [""] + parts[1..];
      assert parts[0] + "" == parts[0];
    }
  }

  /** The index of the last `c` in `s`, or -1 when `s` has none. */
  function LastIndexOf(s: string, c: char): (r: int)
    ensures -1 <= r < |s|
    ensures r >= 0 ==> s[r] == c && c !in s[r + 1..]
    ensures r == -1 <==> c !in s
    decreases |s|
  {
    if |s| == 0 then -1
    else if s[|s| - 1] == c then
      assert s[|s|..] == [];
      |s| - 1
    else
      var init := s[..|s| - 1];
      var r := LastIndexOf(init, c);
      assert s == init + [s[|s| - 1]];
      assert c in s <==> c in init;
      assert r >= 0 ==> s[r + 1..] == init[r + 1..] + [s[|s| - 1]];
      r
  }

  /** The index of the first `c` in `s`, or -1 when `s` has none. */
  function IndexOf(s: string, c: char): (r: int)
    ensures -1 <= r < |s|
    ensures r >= 0 ==> s[r] == c && c !in s[..r]
    ensures r == -1 <==> c !in s
    decreases |s|
  {
    if |s| == 0 then -1
    else if s[0] == c then 0
    else
      var r := IndexOf(s[1..], c);
      assert r >= 0 ==> s[..r + 1] == [s[0]] + s[1..][..r];
      if r < 0 then -1 else r + 1
  }

  /** QString::left: the first `n` characters, or all of `s` when it is shorter. */
  function Left(s: string, n: nat): (r: string)
    ensures |r| <= n && |r| <= |s|
    ensures r == s[..|r|]
    ensures |s| <= n ==> r == s
    ensures |s| > n ==> |r| == n
  {
    if |s| <= n then s else s[..n]
  }

  /** `pre` is a prefix of `s`. */
  predicate StartsWith(s: string, pre: string)
  {
    |pre| <= |s| && s[..|pre|] == pre
  }
}

=== FILE: toc_tree.dfy ===
/** buildTree (mainwindow.cpp:100-121): the hierarchy behind the table of contents,
    grown one slash-separated path at a time. The program walks a pointer into the
    growing child lists; here one path is inserted by a recursive function that
    returns the updated node, and the list of paths is folded from the left. */
module TocTree {
  import opened Text
  import opened Results

  /** One path segment: its title, the whole input path that created it, and its
      children in the order they were first seen. */
  datatype Node = Node(title: string, path: string, children: seq<Node>)

  /** The root buildTree starts from. */
  const EmptyRoot: Node := Node("", "", [])

  /** The linear search of mainwindow.cpp:107-113: the index of the first child titled
      `title`, or -1 when there is none. */
  function FindChild(children: seq<Node>, title: string): (r: int)
    ensures -1 <= r < |children|
    ensures r >= 0 ==> children[r].title == title
    ensures forall j :: 0 <= j < |children| && (r < 0 || j < r) ==> children[j].title != title
    decreases |children|
  {
    if |children| == 0 then -1
    else if children[0].title == title then 0
    else
      var k := FindChild(children[1..], title);
      if k < 0 then -1 else k + 1
  }

  /** Node::addChild: append after the existing children. */
  function AddChild(n: Node, child: Node): Node
  {
    n.(children := n.children + [child])
  }

  /** The inner loop of buildTree for one path: follow the segments from `n`, reusing
      the first child with a matching title and otherwise appending `Node(part, file)`
      and descending into it. */
  function Insert(n: Node, parts: seq<string>, file: string): (r: Node)
    ensures r.title == n.title && r.path == n.path
    ensures |parts| > 0 && FindChild(n.children, parts[0]) < 0 ==>
      && |r.children| == |n.children| + 1
      && r.children[..|n.children|] == n.children
      && r.children[|n.children|].title == parts[0]
      && r.children[|n.children|].path == file
    ensures |parts| > 0 && FindChild(n.children, parts[0]) >= 0 ==>
      && |r.children| == |n.children|
      && forall j :: 0 <= j < |n.children| && j != FindChild(n.children, parts[0]) ==> r.children[j] == n.children[j]
    ensures |parts| == 0 ==> r == n
    decreases |parts|
  {
    if |parts| == 0 then n
    else
      var k := FindChild(n.children, parts[0]);
      if k >= 0 then n.(children := n.children[k := Insert(n.children[k], parts[1..], file)])
      else AddChild(n, Insert(Node(parts[0], file, []), parts[1..], file))
  }

  /** The outer loop of buildTree: insert every path, in order, starting from `t`. */
  function InsertAll(t: Node, files: seq<string>): Node
    decreases |files|
  {
    if |files| == 0 then t
    else InsertAll(Insert(t, Split(files[0], '/'), files[0]), files[1..])
  }

  /** buildTree: the tree of all `files`, under a root with empty title and path. */
  function BuildTree(files: seq<string>): (root: Node)
    ensures root.title == "" && root.path == ""
    ensures |files| == 0 ==> root == EmptyRoot
  {
    InsertAllKeepsRoot(EmptyRoot, files);
    InsertAll(EmptyRoot, files)
  }

  lemma {:induction false} InsertAllKeepsRoot(t: Node, files: seq<string>)
    ensures InsertAll(t, files).title == t.title && InsertAll(t, files).path == t.path
    decreases |files|
  {
    if |files| > 0 {
      InsertAllKeepsRoot(Insert(t, Split(files[0], '/'), files[0]), files[1..]);
    }
  }

  // ---------------------------------------------------------------------------
  // Reference notions about trees

  /** Walking from `n` along `parts` by title, taking the first match at each level. */
  function Follow(n: Node, parts: seq<string>): Option<Node>
    decreases |parts|
  {
    if |parts| == 0 then Some(n)
    else
      var k := FindChild(n.children, parts[0]);
      if k < 0 then None else Follow(n.children[k], parts[1..])
  }

  /** `parts` spells a title path from `n`. */
  predicate HasPath(n: Node, parts: seq<string>)
  {
    Follow(n, parts).Some?
  }

  /** No node below or at `n` has two children with the same title. */
  ghost predicate UniqueTitles(n: Node)
    decreases n
  {
    && (forall i, j :: 0 <= i < j < |n.children| ==> n.children[i].title != n.children[j].title)
    && (forall i :: 0 <= i < |n.children| ==> UniqueTitles(n.children[i]))
  }

  /** Every node strictly below `n` carries one of `files` as its path. */
  ghost predicate PathsFrom(n: Node, files: seq<string>)
    decreases n
  {
    forall i :: 0 <= i < |n.children| ==> n.children[i].path in files && PathsFrom(n.children[i], files)
  }

  /** `b` grew from `a`: same title and path, and every child of `a` is still at its
      index in `b` (possibly grown itself); new children only come after them. */
  ghost predicate Extends(a: Node, b: Node)
    decreases a
  {
    && a.title == b.title && a.path == b.path
    && |a.children| <= |b.children|
    && forall i :: 0 <= i < |a.children| ==> Extends(a.children[i], b.children[i])
  }

  /** The number of distinct title paths from `n` that spell `parts`. */
  ghost function PathCount(n: Node, parts: seq<string>): nat
    decreases |parts|, 1, 0
  {
    if |parts| == 0 then 1 else ChildPathCount(n.children, parts)
  }

  ghost function ChildPathCount(cs: seq<Node>, parts: seq<string>): nat
    requires |parts| > 0
    decreases |parts|, 0, |cs|
  {
    if |cs| == 0 then 0
    else (if cs[0].title == parts[0] then PathCount(cs[0], parts[1..]) else 0) + ChildPathCount(cs[1..], parts)
  }

  // ---------------------------------------------------------------------------
  // Lemmas about one insertion

  lemma {:induction false} ExtendsRefl(a: Node)
    ensures Extends(a, a)
    decreases a
  {
    forall i | 0 <= i < |a.children| ensures Extends(a.children[i], a.children[i]) {
      ExtendsRefl(a.children[i]);
    }
  }

  lemma {:induction false} ExtendsTrans(a: Node, b: Node, c: Node)
    requires Extends(a, b) && Extends(b, c)
    ensures Extends(a, c)
    decreases a
  {
    forall i | 0 <= i < |a.children| ensures Extends(a.children[i], c.children[i]) {
      ExtendsTrans(a.children[i], b.children[i], c.children[i]);
    }
  }

  /** Insertion never reorders, retitles or re-paths an existing node: it only appends. */
  lemma {:induction false} InsertExtends(n: Node, parts: seq<string>, file: string)
    ensures Extends(n, Insert(n, parts, file))
    decreases |parts|
  {
    var r := Insert(n, parts, file);
    if |parts| == 0 {
      ExtendsRefl(n);
    } else {
      var k := FindChild(n.children, parts[0]);
      forall i | 0 <= i < |n.children| ensures Extends(n.children[i], r.children[i]) {
        if i == k {
          InsertExtends(n.children[k], parts[1..], file);
        } else {
          assert r.children[i] == n.children[i];
          ExtendsRefl(n.children[i]);
        }
      }
    }
  }

  /** A title path of `a` is still a title path once `a` has grown into `b`. */
  lemma {:induction false} ExtendsKeepsPaths(a: Node, b: Node, parts: seq<string>)
    requires Extends(a, b)
    requires HasPath(a, parts)
    ensures HasPath(b, parts)
    decreases |parts|
  {
    if |parts| > 0 {
      var k := FindChild(a.children, parts[0]);
      assert FindChild(b.children, parts[0]) == k;
      ExtendsKeepsPaths(a.children[k], b.children[k], parts[1..]);
    }
  }

  /** After inserting a path, its segments spell a title path from the node. */
  lemma {:induction false} InsertCreatesPath(n: Node, parts: seq<string>, file: string)
    ensures HasPath(Insert(n, parts, file), parts)
    decreases |parts|
  {
    if |parts| > 0 {
      var r := Insert(n, parts, file);
      var k := FindChild(n.children, parts[0]);
      if k >= 0 {
        assert r.children[k] == Insert(n.children[k], parts[1..], file);
        assert forall j :: 0 <= j < |r.children| ==> r.children[j].title == n.children[j].title;
        assert FindChild(r.children, parts[0]) == k;
        InsertCreatesPath(n.children[k], parts[1..], file);
      } else {
        assert FindChild(r.children, parts[0]) == |n.children|;
        InsertCreatesPath(Node(parts[0], file, []), parts[1..], file);
      }
    }
  }

  /** Inserting a path that is already present changes nothing. */
  lemma {:induction false} InsertPresent(n: Node, parts: seq<string>, file: string)
    requires HasPath(n, parts)
    ensures Insert(n, parts, file) == n
    decreases |parts|
  {
    if |parts| > 0 {
      var k := FindChild(n.children, parts[0]);
      InsertPresent(n.children[k], parts[1..], file);
      assert n.children[k := n.children[k]] == n.children;
    }
  }

  /** Insertion keeps sibling titles distinct. */
  lemma {:induction false} InsertUnique(n: Node, parts: seq<string>, file: string)
    requires UniqueTitles(n)
    ensures UniqueTitles(Insert(n, parts, file))
    decreases |parts|
  {
    if |parts| > 0 {
      var r := Insert(n, parts, file);
      var k := FindChild(n.children, parts[0]);
      if k >= 0 {
        InsertUnique(n.children[k], parts[1..], file);
        assert forall i :: 0 <= i < |r.children| ==> r.children[i].title == n.children[i].title;
      } else {
        InsertUnique(Node(parts[0], file, []), parts[1..], file);
        assert forall i :: 0 <= i < |n.children| ==> r.children[i] == n.children[i];
      }
    }
  }

  /** Every node insertion creates carries the inserted file as its path. */
  lemma {:induction false} InsertPaths(n: Node, parts: seq<string>, file: string, files: seq<string>)
    requires PathsFrom(n, files) && file in files
    ensures PathsFrom(Insert(n, parts, file), files)
    decreases |parts|
  {
    if |parts| > 0 {
      var r := Insert(n, parts, file);
      var k := FindChild(n.children, parts[0]);
      if k >= 0 {
        InsertPaths(n.children[k], parts[1..], file, files);
      } else {
        InsertPaths(Node(parts[0], file, []), parts[1..], file, files);
        assert forall i :: 0 <= i < |n.children| ==> r.children[i] == n.children[i];
      }
    }
  }

  // ---------------------------------------------------------------------------
  // Counting title paths

  lemma {:induction false} ChildPathCountNone(cs: seq<Node>, parts: seq<string>)
    requires |parts| > 0
    requires forall i :: 0 <= i < |cs| ==> cs[i].title != parts[0]
    ensures ChildPathCount(cs, parts) == 0
    decreases |cs|
  {
    if |cs| > 0 {
      ChildPathCountNone(cs[1..], parts);
    }
  }

  /** With distinct sibling titles, at most one title path spells any segment list. */
  lemma {:induction false} PathCountAtMostOne(n: Node, parts: seq<string>)
    requires UniqueTitles(n)
    ensures PathCount(n, parts) <= 1
    decreases |parts|, 1
  {
    if |parts| > 0 {
      ChildPathCountAtMostOne(n.children, parts);
    }
  }

  lemma {:induction false} ChildPathCountAtMostOne(cs: seq<Node>, parts: seq<string>)
    requires |parts| > 0
    requires forall i, j :: 0 <= i < j < |cs| ==> cs[i].title != cs[j].title
    requires forall i :: 0 <= i < |cs| ==> UniqueTitles(cs[i])
    ensures ChildPathCount(cs, parts) <= 1
    decreases |parts|, 0, |cs|
  {
    if |cs| > 0 {
      if cs[0].title == parts[0] {
        PathCountAtMostOne(cs[0], parts[1..]);
        ChildPathCountNone(cs[1..], parts);
      } else {
        ChildPathCountAtMostOne(cs[1..], parts);
      }
    }
  }

  lemma {:induction false} ChildPathCountIncludes(cs: seq<Node>, parts: seq<string>, k: nat)
    requires |parts| > 0
    requires k < |cs| && cs[k].title == parts[0]
    ensures ChildPathCount(cs, parts) >= PathCount(cs[k], parts[1..])
    decreases |cs|
  {
    if k > 0 {
      ChildPathCountIncludes(cs[1..], parts, k - 1);
    }
  }

  /** A segment list the walk can follow is spelled by at least one title path. */
  lemma {:induction false} PathCountAtLeastOne(n: Node, parts: seq<string>)
    requires HasPath(n, parts)
    ensures PathCount(n, parts) >= 1
    decreases |parts|
  {
    if |parts| > 0 {
      var k := FindChild(n.children, parts[0]);
      PathCountAtLeastOne(n.children[k], parts[1..]);
      ChildPathCountIncludes(n.children, parts, k);
    }
  }

  /** Every leading part of a followable segment list is followable too. */
  lemma {:induction false} HasPathPrefix(n: Node, parts: seq<string>, k: nat)
    requires HasPath(n, parts) && k <= |parts|
    ensures HasPath(n, parts[..k])
    decreases |parts|
  {
    if k > 0 {
      var c := FindChild(n.children, parts[0]);
      assert parts[..k][1..] == parts[1..][..k - 1];
      HasPathPrefix(n.children[c], parts[1..], k - 1);
    }
  }

  // ---------------------------------------------------------------------------
  // Lemmas about the whole fold

  /** Folding over a concatenation is folding over each part in turn. */
  lemma {:induction false} InsertAllAppend(t: Node, a: seq<string>, b: seq<string>)
    ensures InsertAll(t, a + b) == InsertAll(InsertAll(t, a), b)
    decreases |a|
  {
    if |a| == 0 {
      assert a + b == b;
    } else {
      assert (a + b)[0] == a[0];
      assert (a + b)[1..] == a[1..] + b;
      InsertAllAppend(Insert(t, Split(a[0], '/'), a[0]), a[1..], b);
    }
  }

  lemma {:induction false} InsertAllExtends(t: Node, files: seq<string>)
    ensures Extends(t, InsertAll(t, files))
    decreases |files|
  {
    if |files| == 0 {
      ExtendsRefl(t);
    } else {
      var t1 := Insert(t, Split(files[0], '/'), files[0]);
      InsertExtends(t, Split(files[0], '/'), files[0]);
      InsertAllExtends(t1, files[1..]);
      ExtendsTrans(t, t1, InsertAll(t1, files[1..]));
    }
  }

  lemma {:induction false} InsertAllInvariants(t: Node, files: seq<string>, all: seq<string>)
    requires UniqueTitles(t) && PathsFrom(t, all)
    requires forall f :: f in files ==> f in all
    ensures UniqueTitles(InsertAll(t, files)) && PathsFrom(InsertAll(t, files), all)
    decreases |files|
  {
    if |files| > 0 {
      var t1 := Insert(t, Split(files[0], '/'), files[0]);
      InsertUnique(t, Split(files[0], '/'), files[0]);
      InsertPaths(t, Split(files[0], '/'), files[0], all);
      InsertAllInvariants(t1, files[1..], all);
    }
  }

  lemma {:induction false} InsertAllHasPaths(t: Node, files: seq<string>, f: string)
    requires f in files
    ensures HasPath(InsertAll(t, files), Split(f, '/'))
    decreases |files|
  {
    var t1 := Insert(t, Split(files[0], '/'), files[0]);
    if f == files[0] {
      InsertCreatesPath(t, Split(f, '/'), f);
      InsertAllExtends(t1, files[1..]);
      ExtendsKeepsPaths(t1, InsertAll(t1, files[1..]), Split(f, '/'));
    } else {
      InsertAllHasPaths(t1, files[1..], f);
    }
  }

  /** The built tree has distinct sibling titles everywhere, and every node below the
      root carries one of the input paths. */
  lemma BuildTreeWellFormed(files: seq<string>)
    ensures UniqueTitles(BuildTree(files))
    ensures PathsFrom(BuildTree(files), files)
  {
    InsertAllInvariants(EmptyRoot, files, files);
  }

  /** Every input's segment list is a title path from the root. */
  lemma BuildTreeHasEveryPath(files: seq<string>, f: string)
    requires f in files
    ensures HasPath(BuildTree(files), Split(f, '/'))
  {
    InsertAllHasPaths(EmptyRoot, files, f);
  }

  /** Inputs sharing leading segments share the nodes for them: every leading part of an
      input's segment list is spelled by exactly one title path in the tree. */
  lemma BuildTreeSharesPrefixes(files: seq<string>, f: string, k: nat)
    requires f in files && k <= |Split(f, '/')|
    ensures PathCount(BuildTree(files), Split(f, '/')[..k]) == 1
  {
    var t := BuildTree(files);
    BuildTreeWellFormed(files);
    BuildTreeHasEveryPath(files, f);
    HasPathPrefix(t, Split(f, '/'), k);
    PathCountAtMostOne(t, Split(f, '/')[..k]);
    PathCountAtLeastOne(t, Split(f, '/')[..k]);
  }

  /** Repeating an input path leaves the tree unchanged. */
  lemma BuildTreeRepeat(files: seq<string>, f: string)
    requires f in files
    ensures BuildTree(files + [f]) == BuildTree(files)
  {
    InsertAllAppend(EmptyRoot, files, [f]);
    BuildTreeHasEveryPath(files, f);
    InsertPresent(BuildTree(files), Split(f, '/'), f);
  }

  /** Sibling order is first-seen order: the tree of any prefix of the input is kept,
      node for node and index for index, in the tree of the whole input. */
  lemma BuildTreeFirstSeen(files: seq<string>, k: nat)
    requires k <= |files|
    ensures Extends(BuildTree(files[..k]), BuildTree(files))
  {
    assert files == files[..k] + files[k..];
    InsertAllAppend(EmptyRoot, files[..k], files[k..]);
    InsertAllExtends(BuildTree(files[..k]), files[k..]);
  }
}
